=== FILE: README.md ===
# comments-cleaner, modelled in Dafny

This project models the core of `comments-cleaner`. That tool strips comments
from source text and then collapses runs of blank lines. The model covers:

- the language table (`src/language.rs`): the `Language` enum, lookup by file
  extension, lookup by user-supplied name, and display names;
- the per-language comment scanners in `src/cleaner.rs`: C-style (C, C++,
  Java, JavaScript, TypeScript, Rust), Python, CSS, PHP and BASIC;
- the blank-line collapser, `clean_empty_lines`;
- the dispatcher, `clean_comments`, which runs the scanner for a language and
  then the collapser.

Each scanner is one character loop in the source, with a handful of Boolean
flags. In the model each becomes an exhaustive `Mode` datatype and a pure
`StepOf` function. `StepOf` describes one loop iteration: how many characters
it consumes (`used`), how many of them it appends to the output (`keep`), and
the mode it leaves. An escape flag turns into a two-character step. An escape
pending at the end of input is a step that consumes one character and keeps
none. The recursive `ScanFrom` runs the loop to the end of the input.

The Python scanner decides what to do with a triple quote by looking at the
output produced so far. Its `ScanFrom` therefore carries that output as a
parameter.

Modules:

- `Scanning`: shared vocabulary. It holds `char::is_whitespace`, the
  line-comment search (`LineEnd`), the block-comment search (`BlockEnd`), the
  `Step` record, the shape of a quoted literal body, and the subsequence
  relation.
- `CStyleScanner`, `PythonScanner`, `CssScanner`, `PhpScanner`,
  `BasicScanner`: one per scanner.
- `BlankLines`: the collapser, with `str::lines` and `join("\n")`.
- `Languages`: the language table.
- `Cleaner`: the dispatcher.

Rust's `char` iteration matches Dafny's `char`, a Unicode scalar value.
`char::is_whitespace` is modelled exactly, as the Unicode White_Space list.
`str::lines` is modelled exactly: it splits on `\n`, drops one trailing `\r`
from each newline-terminated piece, and omits a final empty piece.

The model follows the code as written, including these behaviours:

- The C-style scanner updates the "last non-whitespace character" for
  characters inside string, character and template literals too, not only in
  code.
- Inside a C-style regex, a backslash always sets the escape flag, even when
  that backslash is itself escaped. So a doubled backslash still guards the
  slash after it (`CStyleScanner.DoubledBackslashGuardsSlash`). The check at
  src/cleaner.rs:69 intercepts every backslash, so an escaped backslash never
  reaches the flag-clearing branch at lines 102-103, and the branch at lines
  109-110 is dead.
- The C-style and Python scanners copy a backslash outside literals
  unchanged. The PHP scanner copies it and drops the character after it
  (`PhpScanner.BackslashSwallowsNext`).
- A Python triple-quoted string kept after `=` is copied with no escape
  handling. It ends at the first three quotes in a row.
- The BASIC `REM` keyword is recognised even in the middle of a word
  (`BasicScanner.RemInsideWord`). It is not recognised when nothing follows
  it (`BasicScanner.RemAtEndKept`).
- The collapser keeps a trailing newline when the input has one. The
  converse fails: a dropped final blank line can leave a newline at the end
  (`BlankLines.TrailingNewlineMayAppear`).

## Model

| member | source | states |
|---|---|---|
| Scanning.IsWhitespace | src/cleaner.rs:80 | a character is whitespace exactly when it has the Unicode White_Space property, as `char::is_whitespace` tests |
| Scanning.IsAsciiAlphanumeric | src/cleaner.rs:159 | a character is an ASCII letter or digit, as `char::is_ascii_alphanumeric` tests; non-ASCII letters are not included |
| Scanning.BlockScan | src/cleaner.rs:145-152 | the block-comment loop, given the previous character, stops right after the first slash that follows a star, or at the end of input, and always consumes at least one character of non-empty input |
| Scanning.LineEnd | src/cleaner.rs:137-142 | a line comment stops before the first newline, or at the end of input; that newline is not consumed |
| Scanning.LineEndAt | src/cleaner.rs:137-142 | for a newline-free body followed by a newline or the end of input, the line comment consumes exactly the body |
| Scanning.BlockEnd | src/cleaner.rs:145-152 | a block comment consumes everything through the first slash that follows a star, with the opener's star counting; with no such slash it consumes the rest of the input |
| Scanning.BlockEndAfter | src/cleaner.rs:145-152 | when the body has no earlier closer, a block comment ends right after its `*/` |
| CStyleScanner.Track | src/cleaner.rs:80 | the last non-whitespace character is replaced by each appended non-whitespace character and kept across whitespace |
| CStyleScanner.RegexMayStart | src/cleaner.rs:155-161 | a slash may open a regex when there is no earlier non-whitespace character, or that character is not a letter, digit, `)`, `]`, `}` or `.` |
| CStyleScanner.Delimiter | src/cleaner.rs:171-179 | each literal mode has its own closing character, so the character identifies the mode: `"` closes a string, `'` a character literal, and a backtick a template (line 91) |
| CStyleScanner.EscapeStep | src/cleaner.rs:62-72 | a backslash inside a quoted literal keeps the state, and the pair is kept whole unless the input ends after the backslash |
| CStyleScanner.CodeStep | src/cleaner.rs:69-183 | in code one iteration keeps at most the character it reads, and keeps nothing only for a slash that opens a line or block comment |
| CStyleScanner.RegexStep | src/cleaner.rs:69-115 | inside a regex every character is copied; only an unguarded slash outside a class returns to code, and a backslash always sets the guard |
| CStyleScanner.StepOf | src/cleaner.rs:61-183 | every loop iteration consumes at least one character and keeps no more than it consumes |
| CStyleScanner.ScanFrom | src/cleaner.rs:61-185 | the loop run to the end of input produces no more characters than it reads |
| CStyleScanner.StripCStyle | src/cleaner.rs:48-186 | the output is the input with characters deleted, never reordered or invented, so it is never longer |
| CStyleScanner.ScanIdentity | src/cleaner.rs:61-183 | text with no slash and no backslash is copied unchanged, from any state |
| CStyleScanner.LineCommentRemoved | src/cleaner.rs:133-143 | `//` and the rest of its line are removed; the newline and everything after it are scanned as usual |
| CStyleScanner.BlockCommentRemoved | src/cleaner.rs:144-153 | `/*` through the first `*/` is removed, embedded newlines included |
| CStyleScanner.SlashStarSlashCloses | src/cleaner.rs:144-153 | `/*/` is a complete comment, because the opener's star counts as the closer's star |
| CStyleScanner.BlockCommentUnterminated | src/cleaner.rs:144-153 | an unclosed block comment removes the rest of the input |
| CStyleScanner.RegexDecision | src/cleaner.rs:154-167 | a slash not followed by `/` or `*` is kept; it opens a regex exactly when the next character is not `=` and the last non-whitespace character is absent or not a letter, digit, `)`, `]`, `}` or `.` |
| CStyleScanner.LiteralEscapes | src/cleaner.rs:62-72 | inside a string, character or template literal, a backslash and the character after it are copied as a pair without ending the literal |
| CStyleScanner.LiteralPrev | src/cleaner.rs:62-98 | the tracked last non-whitespace character survives a literal body unchanged, or is replaced by a non-whitespace character of that body (lines 96 and 182 update it inside literals); the character after a backslash is not tracked, because lines 62-66 push it without updating `prev_non_ws` |
| CStyleScanner.AfterClose | src/cleaner.rs:91-94 | a closing backtick becomes the tracked character, while a closing `"` or `'` (lines 171-179) leaves the tracked character as the body left it |
| CStyleScanner.LiteralStep | src/cleaner.rs:62-98 | inside a string, character or template literal, one iteration copies a backslash pair, or closes the literal on its own delimiter (for a string or character, lines 171-179), or copies any other character and tracks it (line 96, or line 182 for a string or character) |
| CStyleScanner.OpenLiteral | src/cleaner.rs:117-131 | in code, a `"`, `'` or backtick is copied and switches the scanner into that literal's mode, without changing the tracked character |
| CStyleScanner.LiteralCloses | src/cleaner.rs:171-179 | inside a literal its own delimiter is copied and returns to code |
| CStyleScanner.LiteralCopied | src/cleaner.rs:61-183 | inside a literal, a body of ordinary characters and backslash pairs, then the delimiter, is copied verbatim, comment markers included |
| CStyleScanner.LiteralRunsToEnd | src/cleaner.rs:61-98 | an unterminated literal is copied to the end of the input |
| CStyleScanner.PendingEscapeLost | src/cleaner.rs:69-72 | a backslash at the very end of input inside a literal is dropped, and the body before it is kept |
| CStyleScanner.QuotedCopied | src/cleaner.rs:117-179 | a string, character or template literal met in code is copied verbatim with both delimiters |
| CStyleScanner.StringCopied | src/cleaner.rs:117-122 | a double-quoted string is copied verbatim, so `// not a comment` inside it survives |
| CStyleScanner.CharCopied | src/cleaner.rs:123-126 | a single-quoted literal is copied verbatim |
| CStyleScanner.TemplateCopied | src/cleaner.rs:84-131 | a backtick template is copied verbatim, URLs with `//` included, and afterwards the backtick counts as the last non-whitespace character |
| CStyleScanner.RegexBodyCopied | src/cleaner.rs:100-115 | inside a regex, a body whose slashes are guarded or inside a class is copied, up to and including the unguarded closing slash |
| CStyleScanner.RegexCopied | src/cleaner.rs:154-167 | where a regex may start, `/body/` is copied verbatim, including comment markers such as the two slashes in `https?:\/\/` |
| CStyleScanner.RegexRunsToEnd | src/cleaner.rs:100-115 | an unterminated regex body is copied to the end of the input |
| CStyleScanner.DoubledBackslashGuardsSlash | src/cleaner.rs:69-112 | inside a regex, two backslashes still guard the next slash, which is copied without closing the regex |
| PythonScanner.StepOf | src/cleaner.rs:195-288 | every loop iteration consumes at least one character and keeps no more than it consumes |
| PythonScanner.TripleEnd | src/cleaner.rs:229-248 | a triple-quoted block's body is consumed up to and including the first three quotes in a row, or to the end of input, and never by less than one character of non-empty input |
| PythonScanner.HasAssignment | src/cleaner.rs:223 | the output so far, with trailing whitespace trimmed, ends in `=` |
| PythonScanner.TrimEnd | src/cleaner.rs:223 | the result is the longest prefix of the input that does not end in whitespace |
| PythonScanner.ScanFrom | src/cleaner.rs:195-288 | the scanner only appends to the output it has built so far, by at most the length of the input |
| PythonScanner.StripPython | src/cleaner.rs:188-291 | the output is the input with characters deleted, never reordered or invented |
| PythonScanner.ScanIdentity | src/cleaner.rs:195-288 | text with no `#`, no backslash and no triple quote is copied unchanged, from any mode |
| PythonScanner.HashCommentRemoved | src/cleaner.rs:270-278 | `#` and the rest of its line are removed; the newline stays |
| PythonScanner.StringBodyCopied | src/cleaner.rs:196-208 | inside a string, backslash pairs and other characters are copied up to and including the closing quote |
| PythonScanner.StringCopied | src/cleaner.rs:264-284 | a string in either quote that is not triple-quoted is copied verbatim, `#` included |
| PythonScanner.EmptyStringCopied | src/cleaner.rs:257-261 | two quotes not followed by a third are emitted as an empty string and scanning stays in code |
| PythonScanner.PendingEscapeLost | src/cleaner.rs:205-208 | when the input ends on a backslash inside a string, the backslash is lost and the string body before it is copied |
| PythonScanner.OpenPair | src/cleaner.rs:215-261 | a quote pair not followed by a third quote is copied as a unit |
| PythonScanner.TripleEndAfter | src/cleaner.rs:240-248 | a triple-quoted block ends right after the first run of three of its quotes |
| PythonScanner.TripleEndUnterminated | src/cleaner.rs:240-248 | with no closing triple quote the block runs to the end of the input |
| PythonScanner.TripleStep | src/cleaner.rs:222-250 | a triple-quoted block is consumed in one step and kept exactly when the trimmed output ends in `=` |
| PythonScanner.TripleQuotedKept | src/cleaner.rs:222-238 | after `=`, a triple-quoted string is kept with its delimiters |
| PythonScanner.DocstringRemoved | src/cleaner.rs:239-250 | not after `=`, a triple-quoted block is removed with its delimiters |
| PythonScanner.DocstringUnterminated | src/cleaner.rs:239-250 | an unterminated docstring removes the rest of the input |
| PythonScanner.BackslashKeptInCode | src/cleaner.rs:205-208 | outside strings a backslash is ordinary text |
| CssScanner.StepOf | src/cleaner.rs:335-380 | every loop iteration consumes at least one character and keeps no more than it consumes |
| CssScanner.ScanFrom | src/cleaner.rs:335-382 | the loop run to the end of input produces no more characters than it reads |
| CssScanner.StripCss | src/cleaner.rs:328-383 | the output is the input with characters deleted, never reordered or invented |
| CssScanner.ScanIdentity | src/cleaner.rs:335-380 | text without quotes and without a slash-star is copied unchanged |
| CssScanner.BlockCommentRemoved | src/cleaner.rs:358-370 | `/*` through the first `*/` is removed |
| CssScanner.BlockCommentUnterminated | src/cleaner.rs:358-370 | an unclosed block comment removes the rest of the input |
| CssScanner.DoubleSlashKept | src/cleaner.rs:358-379 | `//` is not a comment in CSS: the first slash is copied |
| CssScanner.StringBodyCopied | src/cleaner.rs:336-348 | inside a string, backslash pairs and other characters are copied up to and including the closing quote |
| CssScanner.StringCopied | src/cleaner.rs:350-377 | a string in either quote is copied verbatim, comment markers included |
| CssScanner.PendingEscapeLost | src/cleaner.rs:345-348 | a backslash at the very end of input inside a string is dropped |
| CssScanner.BackslashKeptInCode | src/cleaner.rs:345-379 | outside strings a backslash is ordinary text |
| PhpScanner.StepOf | src/cleaner.rs:393-468 | every loop iteration consumes at least one character and keeps no more than it consumes |
| PhpScanner.ScanFrom | src/cleaner.rs:393-470 | the loop run to the end of input produces no more characters than it reads |
| PhpScanner.Delimiter | src/cleaner.rs:457-465 | a quoted mode is closed by a double or a single quote |
| PhpScanner.StripPhp | src/cleaner.rs:385-471 | the output is the input with characters deleted, never reordered or invented |
| PhpScanner.ScanIdentity | src/cleaner.rs:393-468 | text without quotes, backslashes, `#` or `/` is copied unchanged |
| PhpScanner.SlashCommentRemoved | src/cleaner.rs:423-433 | `//` and the rest of its line are removed; the newline stays |
| PhpScanner.HashCommentRemoved | src/cleaner.rs:448-456 | `#` and the rest of its line are removed; the newline stays |
| PhpScanner.BlockCommentRemoved | src/cleaner.rs:434-443 | `/*` through the first `*/` is removed |
| PhpScanner.BackslashSwallowsNext | src/cleaner.rs:393-409 | outside strings a backslash is copied and the character after it is dropped |
| PhpScanner.TrailingBackslashDropped | src/cleaner.rs:406-409 | a backslash at the very end of input is dropped in every mode |
| PhpScanner.LiteralStep | src/cleaner.rs:393-465 | inside a quoted mode, a backslash pair is copied, the mode's own quote closes it, and anything else is copied |
| PhpScanner.LiteralCopied | src/cleaner.rs:393-465 | inside a quoted mode, a body and its closing quote are copied verbatim |
| PhpScanner.QuotedCopied | src/cleaner.rs:411-465 | a double- or single-quoted string is copied verbatim, comment markers and escaped quotes included |
| BasicScanner.StepOf | src/cleaner.rs:479-541 | every loop iteration consumes at least one character and keeps no more than it consumes |
| BasicScanner.ScanFrom | src/cleaner.rs:479-543 | the loop run to the end of input produces no more characters than it reads |
| BasicScanner.UpperIs | src/cleaner.rs:505 | a character equals an upper-case ASCII letter after `to_ascii_uppercase`, so it is that letter or its lower-case form |
| BasicScanner.RemMatched | src/cleaner.rs:498-515 | counts how many of `E`, `M` follow the `R`, in any case and in order, stopping at the first miss |
| BasicScanner.StripBasic | src/cleaner.rs:473-544 | the output is the input with characters deleted, never reordered or invented |
| BasicScanner.ScanIdentity | src/cleaner.rs:479-541 | text without quotes, apostrophes or the letter R is copied unchanged |
| BasicScanner.ApostropheCommentRemoved | src/cleaner.rs:488-496 | an apostrophe and the rest of its line are removed; the newline stays |
| BasicScanner.RemStep | src/cleaner.rs:517-529 | `REM` in any case followed by whitespace drops everything before the next newline |
| BasicScanner.RemCommentRemoved | src/cleaner.rs:498-529 | `REM` in any case plus a non-newline whitespace character removes the rest of the line |
| BasicScanner.RemBeforeNewline | src/cleaner.rs:517-529 | `REM` directly before a newline is an empty comment |
| BasicScanner.RemLastLine | src/cleaner.rs:498-529 | `rem ` removes the rest of the final line |
| BasicScanner.RemInsideWord | src/cleaner.rs:498-529 | the keyword is found inside words: `lorem ipsum` on a last line leaves `lo` |
| BasicScanner.PlainKept | src/cleaner.rs:540 | characters that are neither quotes, apostrophes nor R are copied one by one |
| BasicScanner.NotRemKept | src/cleaner.rs:531-532 | a failed `REM` match keeps the letters it consumed and resumes after them |
| BasicScanner.RemAtEndKept | src/cleaner.rs:517-532 | `REM` at the very end of input is kept |
| BasicScanner.StringBodyCopied | src/cleaner.rs:534-540 | inside a string every character up to the closing quote is copied; a backslash is ordinary |
| BasicScanner.StringCopied | src/cleaner.rs:480-538 | a string is copied verbatim, apostrophes and `REM` included |
| BlankLines.Blank | src/cleaner.rs:28 | a line is blank when every character is whitespace, as `trim().is_empty()` tests |
| BlankLines.StripCR | src/cleaner.rs:23 | a line ending in a carriage return loses exactly that one character, and any other line is unchanged |
| BlankLines.StripCRBlank | src/cleaner.rs:28 | stripping the carriage return does not change whether a line is blank |
| BlankLines.Lines | src/cleaner.rs:23 | no line contains a newline, and there are no lines exactly when the text is empty |
| BlankLines.Join | src/cleaner.rs:42 | the joined text is as long as the lines together plus one newline between each adjacent pair, and empty for no lines |
| BlankLines.Squeeze | src/cleaner.rs:27-40 | the kept lines come from the input, no two adjacent ones are blank, and the first line is kept unless a blank line came just before |
| BlankLines.EndsInNewline | src/cleaner.rs:42 | the text's last character is a newline, as `content.ends_with('\n')` tests; empty text does not qualify |
| BlankLines.CleanEmptyLines | src/cleaner.rs:22-46 | the output is never longer than the input and ends in a newline when the input does |
| BlankLines.SqueezeSelects | src/cleaner.rs:27-40 | the loop keeps a line exactly when it is not blank, is the first line, or follows a non-blank line |
| BlankLines.SqueezeKeepsNonBlank | src/cleaner.rs:27-40 | every non-blank line is kept, in order |
| BlankLines.SqueezeStable | src/cleaner.rs:27-40 | lines with no two adjacent blanks are left alone |
| BlankLines.SqueezeIdempotent | src/cleaner.rs:27-40 | collapsing the lines twice is collapsing them once |
| BlankLines.LinesOfJoin | src/cleaner.rs:42-44 | joining newline-free lines and adding a newline splits back into the same lines, carriage returns stripped |
| BlankLines.LinesOfJoinOpen | src/cleaner.rs:42-44 | without the final newline, the same holds except that the last line keeps its carriage return and is lost when empty |
| BlankLines.OutputLines | src/cleaner.rs:22-46 | for input ending in a newline, the output's lines are the collapsed input lines |
| BlankLines.OutputSelects | src/cleaner.rs:22-46 | for input ending in a newline and free of carriage returns, the output's lines are exactly the lines the keep rule selects |
| BlankLines.CollapsedNoDoubleBlank | src/cleaner.rs:22-46 | for every input, the output has no two adjacent blank lines |
| BlankLines.CollapseIdempotent | src/cleaner.rs:22-46 | on text ending in a newline with no carriage returns, collapsing twice is collapsing once |
| BlankLines.TrailingNewlineMayAppear | src/cleaner.rs:42-45 | the output can end in a newline when the input does not: `a`, newline, newline, space becomes `a` and a newline |
| Cleaner.CStyleFamily | src/cleaner.rs:6-11 | exactly C, C++, Java, JavaScript, TypeScript and Rust take the C-style match arm |
| Cleaner.Strip | src/cleaner.rs:5-17 | every language but HTML gets a scanner whose output is a subsequence of its input; HTML is handed to its own cleaner |
| Cleaner.CleanComments | src/cleaner.rs:4-20 | the result has no two adjacent blank lines, and for languages other than HTML it is never longer than the input |
| Cleaner.CStyleFamilyAgrees | src/cleaner.rs:6-11 | C, C++, Java, JavaScript, TypeScript and Rust are cleaned identically, by the C-style scanner then the collapser |
| Cleaner.HtmlDelegated | src/cleaner.rs:13 | HTML goes through its own cleaner, then the collapser |
| Cleaner.CStyleCommentFree | src/cleaner.rs:4-20 | C-family text with no slash and no backslash only has its blank lines collapsed |
| Cleaner.PythonCommentFree | src/cleaner.rs:12 | Python text with no `#`, backslash or triple quote only has its blank lines collapsed |
| Cleaner.CssCommentFree | src/cleaner.rs:14 | CSS text with no quotes and no slash-star only has its blank lines collapsed |
| Cleaner.PhpCommentFree | src/cleaner.rs:15 | PHP text with none of its special characters only has its blank lines collapsed |
| Cleaner.BasicCommentFree | src/cleaner.rs:16 | BASIC text with no quotes, apostrophes or letter R only has its blank lines collapsed |
| Languages.LowerChar | src/language.rs:20 | ASCII capitals move to lower case and every other character is unchanged |
| Languages.ToLower | src/language.rs:20 | the lower-cased text has the same length and is lowered character by character |
| Languages.ExtensionTable | src/language.rs:20-33 | a lower-case extension maps to a language exactly when it is in that language's extension set |
| Languages.AliasTable | src/language.rs:43-56 | a lower-case name maps to a language exactly when it is in that language's alias set |
| Languages.FromExtension | src/language.rs:19-34 | a recognised extension, lower-cased, belongs to the language returned |
| Languages.FromPath | src/language.rs:36-40 | a path with no usable extension has no language; otherwise the extension decides |
| Languages.FromStr | src/language.rs:42-57 | a recognised name, lower-cased, is an alias of the language returned |
| Languages.Name | src/language.rs:59-73 | every display name is non-empty |
| Languages.FromExtensionExact | src/language.rs:20-32 | an extension maps to a language exactly when its lower-case form is in that language's extension set |
| Languages.FromExtensionNone | src/language.rs:32 | an extension in no set is rejected |
| Languages.FromExtensionIgnoresCase | src/language.rs:20 | extensions equal up to letter case map to the same result |
| Languages.FromStrExact | src/language.rs:43-56 | a name selects a language exactly when its lower-case form is in that language's alias set |
| Languages.FromStrNone | src/language.rs:55 | a name in no alias set is rejected |
| Languages.FromStrIgnoresCase | src/language.rs:43 | names equal up to letter case select the same result |
| Languages.NameRoundTrip | src/language.rs:42-73 | reading back a display name as a user-supplied name gives the same language |
| Languages.NameInjective | src/language.rs:59-73 | different languages have different display names |
| Languages.ExtensionsThatAreNotNames | src/language.rs:19-57 | `h`, `htm`, `cc`, `bas` and `pyw` are extensions but not accepted names |
| Languages.NamesThatAreNotExtensions | src/language.rs:19-57 | `c++`, `javascript` and `typescript` are accepted names but not extensions |
| Languages.WordsThatAreNotExtensions | src/language.rs:19-57 | `python`, `rust` and `basic` are accepted names but not extensions |
| Languages.UpperCaseExtension | src/language.rs:19-40 | `CPP`, `Py` and `JS` are recognised in upper case, and `txt` is not recognised |

## Left out

- `clean_html_comments` (src/cleaner.rs:293-326) uses regular expressions from an external crate and is not modelled. The dispatcher takes the HTML cleaner as a function parameter, so nothing is assumed about what it does.
- src/processor.rs and src/main.rs are not part of this model: file and directory I/O, command-line parsing, backups and dry runs.
- Languages.FromPath: the path-to-extension step (`Path::extension`, then `to_str`) is left to the caller. The model takes the extension, or its absence, as an `Option`.
- Languages.ToLower: `str::to_lowercase` is modelled for ASCII letters only. This does not change any lookup result. Every table key is ASCII lower case, and no non-ASCII character lowercases to a table character. The Kelvin sign lowercases to `k`, which no key contains, and `İ` lowercases to two characters that match nothing.
- Languages.Name: the contract says only that a name is non-empty. The real content is in NameRoundTrip and NameInjective.
- BlankLines.CleanEmptyLines: states only that a trailing newline carries from input to output. The converse is false, as TrailingNewlineMayAppear shows.
- BlankLines.OutputSelects: proved only for input that ends in a newline and has no carriage returns. Otherwise a carriage return is stripped or the last line is handled differently, as OutputLines and LinesOfJoinOpen describe.
- BlankLines.CollapseIdempotent: proved only for input that ends in a newline and has no carriage returns.
- Cleaner.CleanComments: for HTML no length bound is stated, because the HTML cleaner is a parameter.
- Cleaner.CStyleCommentFree, Cleaner.PythonCommentFree, Cleaner.CssCommentFree, Cleaner.PhpCommentFree, Cleaner.BasicCommentFree: these describe comment-free text by the absence of the characters each scanner reacts to. That is sufficient but narrower than "contains no comment".
- Idempotence of the whole cleaner on already-cleaned text is not claimed. A scanner's output can still contain text that the same scanner changes; for example, PHP turns `a\b` into `a\`, and a second pass drops that final backslash.
- Python: the triple-quote decision reads the output built so far, so it is stated relative to that output (`HasAssignment(out)`) rather than to the original text.

=== FILE: basic.dfy ===
/**
  The BASIC scanner. An apostrophe starts a comment to the end of the line,
  and so does `REM` (any letter case) followed by whitespace. The `REM`
  check does not look at what precedes the `R`, so it also fires in the
  middle of a word. Double-quoted strings are copied; they have no escapes.
 */
module BasicScanner {
  import opened Scanning

  datatype Mode = Code | InString

  /** Rust's `to_ascii_uppercase(c) == u` for an upper-case ASCII letter `u`. */
  predicate UpperIs(c: char, u: char)
    requires 'A' <= u <= 'Z'
  {
    c == u || c as int == u as int + 32
  }

  /** How many of the letters `E`, `M` follow the `R` at the head of `s`,
      matched in order and case-insensitively, stopping at the first miss. */
  function RemMatched(s: string): (m: nat)
    requires s != []
    ensures m <= 2 && 1 + m <= |s|
    ensures m >= 1 <==> |s| >= 2 && UpperIs(s[1], 'E')
    ensures m == 2 <==> |s| >= 3 && UpperIs(s[1], 'E') && UpperIs(s[2], 'M')
  {
    if |s| >= 2 && UpperIs(s[1], 'E') then
      if |s| >= 3 && UpperIs(s[2], 'M') then 2 else 1
    else 0
  }

  /** One iteration of the scanner loop. */
  function StepOf(s: string, m: Mode): (p: Step<Mode>)
    requires s != []
    ensures Advances(p, s)
  {
    var ch := s[0];
    match m
    case InString =>
      if ch == '"' then Step(1, 1, Code) else Step(1, 1, InString)
    case Code =>
      if ch == '"' then Step(1, 1, InString)
      else if ch == '\'' then Step(0, 1 + LineEnd(s[1..]), Code)
      else if ch == 'R' || ch == 'r' then
        var k := RemMatched(s);
        if k == 2 && |s| > 3 && IsWhitespace(s[3]) then Step(0, 3 + LineEnd(s[3..]), Code)
        else Step(1 + k, 1 + k, Code)
      else Step(1, 1, Code)
  }

  /** The scanner loop from mode `m` to the end of `s`. */
  function ScanFrom(s: string, m: Mode): (r: string)
    ensures |r| <= |s|
    decreases |s|
  {
    if s == [] then []
    else
      var p := StepOf(s, m);
      s[..p.keep] + ScanFrom(s[p.used..], p.next)
  }

  /** The BASIC comment stripper: its output is the input with characters
      deleted, never reordered or invented. */
  function StripBasic(s: string): (r: string)
    ensures Subseq(r, s)
    ensures |r| <= |s|
  {
    ScanSubseq(s, Code);
    ScanFrom(s, Code)
  }

  lemma {:induction false} ScanSubseq(s: string, m: Mode)
    ensures Subseq(ScanFrom(s, m), s)
    decreases |s|
  {
    if s != [] {
      var p := StepOf(s, m);
      ScanSubseq(s[p.used..], p.next);
      SubseqChunk(s, p.keep, p.used, ScanFrom(s[p.used..], p.next));
    }
  }

  /** The scanner loop runs one iteration and continues from where it left off. */
  lemma Unfold(s: string, m: Mode)
    requires s != []
    ensures ScanFrom(s, m) == s[..StepOf(s, m).keep] + ScanFrom(s[StepOf(s, m).used..], StepOf(s, m).next)
  {
  }

  /** An apostrophe comment is removed up to, not including, the newline. */
  lemma ApostropheCommentRemoved(body: string, rest: string)
    requires '\n' !in body
    requires rest == [] || rest[0] == '\n'
    ensures ScanFrom("'" + body + rest, Code) == ScanFrom(rest, Code)
  {
    var s := "'" + body + rest;
    assert s[1..] == body + rest;
    LineEndAt(body, rest);
    assert s[1 + |body|..] == rest;
    assert s[..0] == [];
    Unfold(s, Code);
  }

  /** `REM` in any letter case at the head of `s`. */
  predicate StartsRem(s: string) {
    |s| >= 3 && (s[0] == 'R' || s[0] == 'r') && UpperIs(s[1], 'E') && UpperIs(s[2], 'M')
  }

  /** `REM` followed by whitespace drops everything before the next newline. */
  lemma RemStep(s: string)
    requires StartsRem(s) && |s| > 3 && IsWhitespace(s[3])
    ensures ScanFrom(s, Code) == ScanFrom(s[3 + LineEnd(s[3..])..], Code)
  {
    assert RemMatched(s) == 2;
    assert s[..0] == [];
    Unfold(s, Code);
  }

  /** `REM` in any letter case, followed by whitespace other than a newline,
      is removed together with the rest of its line; the newline stays. */
  lemma RemCommentRemoved(rem: string, w: char, body: string, rest: string)
    requires |rem| == 3 && StartsRem(rem)
    requires IsWhitespace(w) && w != '\n'
    requires '\n' !in body
    requires rest == [] || rest[0] == '\n'
    ensures ScanFrom(rem + [w] + body + rest, Code) == ScanFrom(rest, Code)
  {
    var s := rem + [w] + body + rest;
    assert s[3..] == [w] + body + rest;
    LineEndAt([w] + body, rest);
    assert s[..3] == rem;
    RemStep(s);
    assert s[3 + 1 + |body|..] == rest;
  }

  /** `REM` directly before a newline is an empty comment. */
  lemma RemBeforeNewline(rem: string, rest: string)
    requires |rem| == 3 && StartsRem(rem)
    ensures ScanFrom(rem + "\n" + rest, Code) == ScanFrom("\n" + rest, Code)
  {
    var s := rem + "\n" + rest;
    assert s[3..] == "\n" + rest;
    assert s[..3] == rem;
    RemStep(s);
  }

  /** A lower-case `rem` and a space remove the rest of a last line. */
  lemma RemLastLine(rest: string)
    requires '\n' !in rest
    ensures ScanFrom("rem " + rest, Code) == []
  {
    RemCommentRemoved("rem", ' ', rest, []);
    assert "rem" + [' '] + rest + [] == "rem " + rest;
  }

  /** The comment keyword is found inside words too: in `lorem ipsum` the
      `rem` and everything after it on the line are dropped. */
  lemma RemInsideWord(rest: string)
    requires '\n' !in rest
    ensures ScanFrom("lorem " + rest, Code) == "lo"
  {
    var u := "rem " + rest;
    RemLastLine(rest);
    PlainKept("lo", u);
    assert "lorem " + rest == "lo" + u;
    assert "lo" + [] == "lo";
  }

  /** A character that is neither a quote, an apostrophe nor `R` is copied. */
  predicate Plain(c: char) {
    c != '"' && c != '\'' && c != 'R' && c != 'r'
  }

  lemma PlainStep(s: string)
    requires s != [] && Plain(s[0])
    ensures ScanFrom(s, Code) == [s[0]] + ScanFrom(s[1..], Code)
  {
    assert StepOf(s, Code) == Step(1, 1, Code);
    Unfold(s, Code);
    assert s[..1] == [s[0]];
  }

  /** Plain characters are copied one at a time. */
  lemma {:induction false} PlainKept(p: string, t: string)
    requires forall i :: 0 <= i < |p| ==> Plain(p[i])
    ensures ScanFrom(p + t, Code) == p + ScanFrom(t, Code)
    decreases |p|
  {
    if p == [] {
      assert p + t == t;
    } else {
      var s := p + t;
      assert s[0] == p[0] && s[1..] == p[1..] + t;
      PlainStep(s);
      PlainKept(p[1..], t);
      Cons(p, ScanFrom(t, Code));
    }
  }

  /** An `R` that does not start `REM` plus whitespace is kept, with the
      letters it matched; scanning resumes after them. */
  lemma NotRemKept(s: string)
    requires s != [] && (s[0] == 'R' || s[0] == 'r')
    requires !(RemMatched(s) == 2 && |s| > 3 && IsWhitespace(s[3]))
    ensures ScanFrom(s, Code) == s[..1 + RemMatched(s)] + ScanFrom(s[1 + RemMatched(s)..], Code)
  {
    Unfold(s, Code);
  }

  /** `REM` at the very end of the input is kept. */
  lemma RemAtEndKept()
    ensures ScanFrom("REM", Code) == "REM"
  {
    var s := "REM";
    assert RemMatched(s) == 2;
    assert StepOf(s, Code) == Step(3, 3, Code);
    Unfold(s, Code);
    assert s[..3] == s && s[3..] == [];
  }

  /** What `StringBodyCopied` states for body `b`. */
  predicate CopiesString(b: string, rest: string) {
    ScanFrom(b + "\"" + rest, InString) == b + "\"" + ScanFrom(rest, Code)
  }

  /** One body character copied, given the claim for the rest of the body. */
  lemma StringCopiedStep(b: string, rest: string)
    requires b != [] && b[0] != '"'
    requires CopiesString(b[1..], rest)
    ensures CopiesString(b, rest)
  {
    var s := b + "\"" + rest;
    assert StepOf(s, InString) == Step(1, 1, InString);
    Unfold(s, InString);
    Regroup(b, '"', rest, ScanFrom(rest, Code), 1);
  }

  /** Inside a string every character up to the closing quote is copied:
      BASIC strings have no escapes, so a backslash is ordinary. */
  lemma {:induction false} StringBodyCopied(b: string, rest: string)
    requires '"' !in b
    ensures CopiesString(b, rest)
    decreases |b|
  {
    if b == [] {
      var s := b + "\"" + rest;
      Unfold(s, InString);
      assert s[1..] == rest && s[..1] == "\"";
    } else {
      StringBodyCopied(b[1..], rest);
      StringCopiedStep(b, rest);
    }
  }

  /** In code, a string is copied verbatim, apostrophes and `REM` included. */
  lemma StringCopied(b: string, rest: string)
    requires '"' !in b
    ensures ScanFrom("\"" + b + "\"" + rest, Code) == "\"" + b + "\"" + ScanFrom(rest, Code)
  {
    var s := "\"" + b + "\"" + rest;
    Enclose('"', b, rest, ScanFrom(rest, Code));
    Unfold(s, Code);
    StringBodyCopied(b, rest);
  }

  /** Text without quotes, apostrophes or the letter R is copied unchanged. */
  lemma {:induction false} ScanIdentity(s: string)
    requires '"' !in s && '\'' !in s && 'R' !in s && 'r' !in s
    ensures ScanFrom(s, Code) == s
    decreases |s|
  {
    if s != [] {
      assert StepOf(s, Code) == Step(1, 1, Code);
      ScanIdentity(s[1..]);
      Unfold(s, Code);
      assert s[..1] + s[1..] == s;
    }
  }
}

=== FILE: blanklines.dfy ===
/**
  The blank-line collapser that runs after every comment scanner. It splits
  its input into lines the way Rust's `str::lines` does, keeps a line that is
  entirely whitespace only when the line before it was not, joins the kept
  lines with newlines, and appends a newline when the input ended with one.
 */
module BlankLines {
  import opened Scanning

  /** Rust's `str::trim().is_empty()`: every character is whitespace. */
  predicate Blank(l: string) {
    forall i :: 0 <= i < |l| ==> IsWhitespace(l[i])
  }

  /** A line ending in carriage return loses it; any other line is unchanged. */
  function StripCR(l: string): (r: string)
    ensures l == r || l == r + "\r"
    ensures l != [] && l[|l| - 1] == '\r' ==> l == r + "\r"
    ensures '\r' !in l ==> r == l
  {
    if l != [] && l[|l| - 1] == '\r' then l[..|l| - 1] else l
  }

  /** Removing a trailing carriage return, itself whitespace, does not change
      whether a line is blank. */
  lemma StripCRBlank(l: string)
    ensures Blank(StripCR(l)) == Blank(l)
  {
    var r := StripCR(l);
    if l != r {
      assert l == r + "\r";
      assert forall i :: 0 <= i < |r| ==> l[i] == r[i];
    }
  }

  /** Rust's `str::lines`: the pieces between newlines, a final empty piece
      omitted, and a carriage return removed from the end of every piece that
      a newline terminated. */
  function Lines(s: string): (ls: seq<string>)
    ensures forall i :: 0 <= i < |ls| ==> '\n' !in ls[i]
    ensures ls == [] <==> s == []
    decreases |s|
  {
    if s == [] then []
    else
      var k := LineEnd(s);
      if k == |s| then [s]
      else
        assert '\n' !in s[..k];
        [StripCR(s[..k])] + Lines(s[k + 1..])
  }

  /** Total number of characters in a list of lines. */
  function TotalLen(ls: seq<string>): nat
  {
    if ls == [] then 0 else |ls[0]| + TotalLen(ls[1..])
  }

  /** Rust's `join("\n")`. */
  function Join(ls: seq<string>): (r: string)
    ensures ls != [] ==> |r| == TotalLen(ls) + |ls| - 1
    ensures ls == [] ==> r == []
  {
    if ls == [] then []
    else if |ls| == 1 then ls[0]
    else ls[0] + "\n" + Join(ls[1..])
  }

  /** No two adjacent lines are both blank. */
  predicate NoDoubleBlank(ls: seq<string>) {
    forall i :: 0 <= i < |ls| - 1 ==> !(Blank(ls[i]) && Blank(ls[i + 1]))
  }

  /** The collapsing loop, `prevBlank` saying whether the last line seen was
      blank: a blank line is kept only after a non-blank one. */
  function Squeeze(ls: seq<string>, prevBlank: bool): (r: seq<string>)
    ensures |r| <= |ls| && TotalLen(r) <= TotalLen(ls)
    ensures forall i :: 0 <= i < |r| ==> r[i] in ls
    ensures NoDoubleBlank(r)
    ensures prevBlank && r != [] ==> !Blank(r[0])
    ensures ls != [] && !prevBlank ==> r != [] && r[0] == ls[0]
    decreases |ls|
  {
    if ls == [] then []
    else
      var rest := Squeeze(ls[1..], Blank(ls[0]));
      if Blank(ls[0]) && prevBlank then rest else [ls[0]] + rest
  }

  /** The collapser: its output is never longer than its input. */
  function CleanEmptyLines(s: string): (r: string)
    ensures |r| <= |s|
    ensures EndsInNewline(s) ==> EndsInNewline(r)
  {
    var kept := Squeeze(Lines(s), false);
    LinesLen(s);
    if EndsInNewline(s) then Join(kept) + "\n" else Join(kept)
  }

  /** The text's last character is a newline, as `ends_with('\n')` tests. */
  predicate EndsInNewline(s: string) {
    s != [] && s[|s| - 1] == '\n'
  }

  /** The lines of `s` and the newlines between them fit in `s`. */
  lemma {:induction false} LinesLen(s: string)
    ensures s != [] ==> TotalLen(Lines(s)) + |Lines(s)| - 1 + (if EndsInNewline(s) then 1 else 0) <= |s|
    decreases |s|
  {
    if s != [] {
      var k := LineEnd(s);
      if k < |s| {
        var t := s[k + 1..];
        LinesLen(t);
        var head := StripCR(s[..k]);
        var ls := Lines(s);
        assert ls == [head] + Lines(t);
        assert ls[1..] == Lines(t);
        assert TotalLen(ls) == |head| + TotalLen(Lines(t));
        assert |head| <= k;
        assert t != [] ==> EndsInNewline(s) == EndsInNewline(t);
      }
    }
  }

  /** Whether line `i` survives, read off the input lines directly: it is not
      blank, or it is the first line, or the line before it is not blank. */
  predicate Keeps(ls: seq<string>, i: nat)
    requires i < |ls|
  {
    !Blank(ls[i]) || i == 0 || !Blank(ls[i - 1])
  }

  /** The lines from index `i` on that `Keeps` selects, in order. */
  function Selected(ls: seq<string>, i: nat): seq<string>
    requires i <= |ls|
    decreases |ls| - i
  {
    if i == |ls| then []
    else (if Keeps(ls, i) then [ls[i]] else []) + Selected(ls, i + 1)
  }

  /** The collapsing loop keeps exactly the lines `Keeps` selects: every run
      of blank lines shrinks to its first line and nothing else changes. */
  lemma {:induction false} SqueezeSelects(ls: seq<string>, i: nat)
    requires i <= |ls|
    ensures Squeeze(ls[i..], i > 0 && Blank(ls[i - 1])) == Selected(ls, i)
    decreases |ls| - i
  {
    if i < |ls| {
      assert ls[i..][0] == ls[i] && ls[i..][1..] == ls[i + 1..];
      SqueezeSelects(ls, i + 1);
    }
  }

  /** The non-blank lines of `ls`, in order. */
  function NonBlank(ls: seq<string>): (r: seq<string>)
    ensures forall i :: 0 <= i < |r| ==> !Blank(r[i])
  {
    if ls == [] then []
    else (if Blank(ls[0]) then [] else [ls[0]]) + NonBlank(ls[1..])
  }

  /** Collapsing keeps every non-blank line, in order. */
  lemma {:induction false} SqueezeKeepsNonBlank(ls: seq<string>, prevBlank: bool)
    ensures NonBlank(Squeeze(ls, prevBlank)) == NonBlank(ls)
    decreases |ls|
  {
    if ls != [] {
      SqueezeKeepsNonBlank(ls[1..], Blank(ls[0]));
      var rest := Squeeze(ls[1..], Blank(ls[0]));
      if !(Blank(ls[0]) && prevBlank) {
        assert ([ls[0]] + rest)[0] == ls[0] && ([ls[0]] + rest)[1..] == rest;
      }
    }
  }

  /** Lines with no two adjacent blanks are left alone. */
  lemma {:induction false} SqueezeStable(ls: seq<string>, prevBlank: bool)
    requires NoDoubleBlank(ls)
    requires prevBlank && ls != [] ==> !Blank(ls[0])
    ensures Squeeze(ls, prevBlank) == ls
    decreases |ls|
  {
    if ls != [] {
      NoDoubleBlankTail(ls);
      SqueezeStable(ls[1..], Blank(ls[0]));
      assert [ls[0]] + ls[1..] == ls;
    }
  }

  lemma NoDoubleBlankTail(ls: seq<string>)
    requires ls != [] && NoDoubleBlank(ls)
    ensures NoDoubleBlank(ls[1..])
    ensures Blank(ls[0]) && ls[1..] != [] ==> !Blank(ls[1..][0])
  {
    forall i | 0 <= i < |ls[1..]| - 1
      ensures !(Blank(ls[1..][i]) && Blank(ls[1..][i + 1]))
    {
      assert ls[1..][i] == ls[i + 1] && ls[1..][i + 1] == ls[i + 2];
    }
  }

  /** Collapsing twice is collapsing once. */
  lemma SqueezeIdempotent(ls: seq<string>)
    ensures Squeeze(Squeeze(ls, false), false) == Squeeze(ls, false)
  {
    SqueezeStable(Squeeze(ls, false), false);
  }

  /** Each line with its carriage return stripped. */
  function MapStripCR(ls: seq<string>): (r: seq<string>)
    ensures |r| == |ls|
    ensures forall i :: 0 <= i < |r| ==> r[i] == StripCR(ls[i])
  {
    if ls == [] then [] else [StripCR(ls[0])] + MapStripCR(ls[1..])
  }

  /** Joining lines and ending with a newline, then splitting, gives the
      lines back, each with a trailing carriage return stripped. */
  lemma {:induction false} LinesOfJoin(ks: seq<string>)
    requires ks != []
    requires forall i :: 0 <= i < |ks| ==> '\n' !in ks[i]
    ensures Lines(Join(ks) + "\n") == MapStripCR(ks)
    decreases |ks|
  {
    var s := Join(ks) + "\n";
    if |ks| == 1 {
      LineEndAt(ks[0], "\n");
      assert s == ks[0] + "\n";
      assert s[..|ks[0]|] == ks[0] && s[|ks[0]| + 1..] == [];
    } else {
      var t := Join(ks[1..]) + "\n";
      assert s == ks[0] + ("\n" + t);
      LineEndAt(ks[0], "\n" + t);
      assert s[..|ks[0]|] == ks[0] && s[|ks[0]| + 1..] == t;
      LinesOfJoin(ks[1..]);
    }
  }

  /** Blankness is read the same before and after carriage returns are stripped. */
  lemma MapStripCRNoDoubleBlank(ls: seq<string>)
    requires NoDoubleBlank(ls)
    ensures NoDoubleBlank(MapStripCR(ls))
  {
    var r := MapStripCR(ls);
    forall i | 0 <= i < |r| - 1
      ensures !(Blank(r[i]) && Blank(r[i + 1]))
    {
      StripCRBlank(ls[i]);
      StripCRBlank(ls[i + 1]);
    }
  }

  /** For input ending in a newline, the output's lines are the collapsed
      input lines (carriage returns aside), so the output has no two adjacent
      blank lines. */
  lemma OutputLines(s: string)
    requires EndsInNewline(s)
    ensures Lines(CleanEmptyLines(s)) == MapStripCR(Squeeze(Lines(s), false))
    ensures NoDoubleBlank(Lines(CleanEmptyLines(s)))
  {
    var kept := Squeeze(Lines(s), false);
    assert kept != [];
    LinesOfJoin(kept);
    MapStripCRNoDoubleBlank(kept);
  }

  /** A line terminated by a newline is split off first. */
  lemma HeadLine(h: string, j: string)
    requires '\n' !in h
    ensures Lines(h + ("\n" + j)) == [StripCR(h)] + Lines(j)
  {
    var s := h + ("\n" + j);
    LineEndAt(h, "\n" + j);
    assert s[..|h|] == h && s[|h| + 1..] == j;
  }

  /** Joining two or more lines puts the first, then a newline, before the rest. */
  lemma JoinCons(ks: seq<string>)
    requires |ks| >= 2
    ensures Join(ks) == ks[0] + ("\n" + Join(ks[1..]))
  {
    assert ks != [] && |ks| != 1;
  }

  /** Stripping all but the last line, one line at a time. */
  lemma MapStripCRInit(ks: seq<string>)
    requires |ks| >= 2
    ensures MapStripCR(ks[..|ks| - 1]) == [StripCR(ks[0])] + MapStripCR(ks[1..][..|ks| - 2])
  {
    var a := ks[..|ks| - 1];
    assert a[0] == ks[0] && a[1..] == ks[1..][..|ks| - 2];
  }

  /** The piece a final line contributes when nothing follows it. */
  function LastPiece(l: string): seq<string> {
    if l == [] then [] else [l]
  }

  /** Joining lines without a final newline, then splitting, gives the lines
      back with carriage returns stripped from all but the last, and the last
      omitted when it is empty. */
  lemma {:induction false} LinesOfJoinOpen(ks: seq<string>)
    requires ks != []
    requires forall i :: 0 <= i < |ks| ==> '\n' !in ks[i]
    ensures Lines(Join(ks)) == MapStripCR(ks[..|ks| - 1]) + LastPiece(ks[|ks| - 1])
    decreases |ks|
  {
    var n := |ks|;
    if n == 1 {
      if ks[0] != [] {
        LineEndAt(ks[0], []);
        assert ks[0] + [] == ks[0];
      }
      assert ks[..0] == [];
    } else {
      var t := ks[1..];
      var j := Join(t);
      assert forall i :: 0 <= i < |t| ==> '\n' !in t[i];
      assert t[|t| - 1] == ks[n - 1] && |t| - 1 == n - 2;
      JoinCons(ks);
      HeadLine(ks[0], j);
      LinesOfJoinOpen(t);
      MapStripCRInit(ks);
      var x := [StripCR(ks[0])];
      var m := MapStripCR(t[..n - 2]);
      var l := LastPiece(ks[n - 1]);
      assert x + (m + l) == (x + m) + l;
    }
  }

  /** A line list whose blank lines sit where another's do, over a prefix of
      it, inherits the absence of adjacent blanks. */
  lemma NoDoubleBlankFollows(ls: seq<string>, ks: seq<string>)
    requires |ls| <= |ks| && NoDoubleBlank(ks)
    requires forall i :: 0 <= i < |ls| ==> Blank(ls[i]) == Blank(ks[i])
    ensures NoDoubleBlank(ls)
  {
    forall i | 0 <= i < |ls| - 1
      ensures !(Blank(ls[i]) && Blank(ls[i + 1]))
    {
      assert !(Blank(ks[i]) && Blank(ks[i + 1]));
    }
  }

  /** The lines read back from an open join are blank exactly where the
      joined lines were. */
  lemma OpenLinesBlankMatch(ks: seq<string>, ls: seq<string>)
    requires ks != []
    requires ls == MapStripCR(ks[..|ks| - 1]) + LastPiece(ks[|ks| - 1])
    ensures |ls| <= |ks|
    ensures forall i :: 0 <= i < |ls| ==> Blank(ls[i]) == Blank(ks[i])
  {
    var n := |ks|;
    var init := MapStripCR(ks[..n - 1]);
    forall i | 0 <= i < |ls|
      ensures Blank(ls[i]) == Blank(ks[i])
    {
      if i < n - 1 {
        assert ls[i] == init[i] && init[i] == StripCR(ks[..n - 1][i]);
        assert ks[..n - 1][i] == ks[i];
        StripCRBlank(ks[i]);
      } else {
        assert ls[i] == ks[n - 1];
      }
    }
  }

  /** Lines without adjacent blanks, joined without a final newline, split
      back into lines without adjacent blanks. */
  lemma OpenJoinNoDoubleBlank(ks: seq<string>)
    requires ks != [] && NoDoubleBlank(ks)
    requires forall i :: 0 <= i < |ks| ==> '\n' !in ks[i]
    ensures NoDoubleBlank(Lines(Join(ks)))
  {
    LinesOfJoinOpen(ks);
    OpenLinesBlankMatch(ks, Lines(Join(ks)));
    NoDoubleBlankFollows(Lines(Join(ks)), ks);
  }

  /** Whatever the input, the collapser's output has no two adjacent blank
      lines. */
  lemma CollapsedNoDoubleBlank(s: string)
    ensures NoDoubleBlank(Lines(CleanEmptyLines(s)))
  {
    if EndsInNewline(s) {
      OutputLines(s);
    } else if s != [] {
      var ls := Lines(s);
      var kept := Squeeze(ls, false);
      assert forall i :: 0 <= i < |kept| ==> '\n' !in kept[i];
      OpenJoinNoDoubleBlank(kept);
    }
  }

  /** For input ending in a newline and free of carriage returns, the output's
      lines are exactly the lines `Keeps` selects from the input's lines. */
  lemma OutputSelects(s: string)
    requires EndsInNewline(s) && '\r' !in s
    ensures Lines(CleanEmptyLines(s)) == Selected(Lines(s), 0)
  {
    OutputLines(s);
    var ls := Lines(s);
    LinesNoCR(s);
    var kept := Squeeze(ls, false);
    assert MapStripCR(kept) == kept;
    SqueezeSelects(ls, 0);
    assert ls[0..] == ls;
  }

  /** On text that ends in a newline and has no carriage returns, collapsing
      a second time changes nothing. */
  lemma CollapseIdempotent(s: string)
    requires EndsInNewline(s) && '\r' !in s
    ensures CleanEmptyLines(CleanEmptyLines(s)) == CleanEmptyLines(s)
  {
    var ls := Lines(s);
    var kept := Squeeze(ls, false);
    var out := CleanEmptyLines(s);
    OutputLines(s);
    LinesNoCR(s);
    assert MapStripCR(kept) == kept;
    assert Lines(out) == kept;
    SqueezeIdempotent(ls);
  }

  /** Lines of carriage-return-free text are carriage-return-free. */
  lemma {:induction false} LinesNoCR(s: string)
    requires '\r' !in s
    ensures forall i :: 0 <= i < |Lines(s)| ==> '\r' !in Lines(s)[i]
    decreases |s|
  {
    if s != [] {
      var k := LineEnd(s);
      if k < |s| {
        assert '\r' !in s[..k];
        assert '\r' !in s[k + 1..];
        LinesNoCR(s[k + 1..]);
      }
    }
  }

  /** The converse of keeping a final newline fails: a blank last line that
      the collapser drops leaves the newline before it at the end. */
  lemma TrailingNewlineMayAppear()
    ensures !EndsInNewline("a\n\n ") && CleanEmptyLines("a\n\n ") == "a\n"
  {
    ExampleLines();
    ExampleSqueeze();
    assert Join(["a", ""]) == "a" + "\n" + "";
  }

  lemma ExampleLines()
    ensures Lines("a\n\n ") == ["a", "", " "]
  {
    var s := "a\n\n ";
    assert LineEnd(s) == 1 && s[..1] == "a" && s[2..] == "\n ";
    assert LineEnd(s[2..]) == 0 && s[2..][..0] == "" && s[2..][1..] == " ";
    assert Lines(" ") == [" "];
  }

  lemma ExampleSqueeze()
    ensures Squeeze(["a", "", " "], false) == ["a", ""]
  {
    assert Blank("") && Blank(" ");
    assert !IsWhitespace("a"[0]);
    var ls := ["a", "", " "];
    assert ls[1..] == ["", " "] && ls[1..][1..] == [" "];
    assert Squeeze([" "], true) == [];
  }
}

=== FILE: cleaner.dfy ===
/**
  The entry point: pick the scanner for the language, strip its comments,
  then collapse runs of blank lines. HTML is cleaned by a pattern-matching
  routine that is not part of this model; it is passed in as `html`.
 */
module Cleaner {
  import opened Scanning
  import opened Languages
  import CStyleScanner
  import PythonScanner
  import CssScanner
  import PhpScanner
  import BasicScanner
  import opened BlankLines

  /** The languages that share the C-style scanner, one match arm in the dispatcher. */
  predicate CStyleFamily(l: Language) {
    l == C || l == Cpp || l == Java || l == JavaScript || l == TypeScript || l == Rust
  }

  /** The comment-stripping pass for `lang`, before blank lines are collapsed. */
  function Strip(content: string, lang: Language, html: string -> string): (r: string)
    ensures lang != Html ==> Subseq(r, content) && |r| <= |content|
    ensures lang == Html ==> r == html(content)
  {
    match lang
    case C => CStyleScanner.StripCStyle(content)
    case Cpp => CStyleScanner.StripCStyle(content)
    case Java => CStyleScanner.StripCStyle(content)
    case JavaScript => CStyleScanner.StripCStyle(content)
    case TypeScript => CStyleScanner.StripCStyle(content)
    case Rust => CStyleScanner.StripCStyle(content)
    case Python => PythonScanner.StripPython(content)
    case Html => html(content)
    case Css => CssScanner.StripCss(content)
    case Php => PhpScanner.StripPhp(content)
    case Basic => BasicScanner.StripBasic(content)
  }

  /** Comments removed and blank-line runs collapsed. For every language but
      HTML the result is never longer than the input, and for every language
      no two adjacent output lines are blank. */
  function CleanComments(content: string, lang: Language, html: string -> string): (r: string)
    ensures lang != Html ==> |r| <= |content|
    ensures NoDoubleBlank(Lines(r))
  {
    var stripped := Strip(content, lang, html);
    CollapsedNoDoubleBlank(stripped);
    CleanEmptyLines(stripped)
  }

  /** The six C-family languages are cleaned identically. */
  lemma CStyleFamilyAgrees(content: string, a: Language, b: Language, html: string -> string)
    requires CStyleFamily(a) && CStyleFamily(b)
    ensures CleanComments(content, a, html) == CleanComments(content, b, html)
    ensures CleanComments(content, a, html) == CleanEmptyLines(CStyleScanner.StripCStyle(content))
  {
  }

  /** HTML is handed to its own cleaner, then blank lines are collapsed. */
  lemma HtmlDelegated(content: string, html: string -> string)
    ensures CleanComments(content, Html, html) == CleanEmptyLines(html(content))
  {
  }

  /** C-family text with no slash and no backslash only has its blank lines
      collapsed. */
  lemma CStyleCommentFree(content: string, lang: Language, html: string -> string)
    requires CStyleFamily(lang)
    requires '/' !in content && '\\' !in content
    ensures CleanComments(content, lang, html) == CleanEmptyLines(content)
  {
    CStyleScanner.ScanIdentity(content, CStyleScanner.Start);
    assert CStyleScanner.StripCStyle(content) == content;
    assert Strip(content, lang, html) == content;
  }

  /** Python text with no hash, no backslash and no triple quote only has its
      blank lines collapsed. */
  lemma PythonCommentFree(content: string, html: string -> string)
    requires '#' !in content && '\\' !in content && PythonScanner.NoTripleQuote(content)
    ensures CleanComments(content, Python, html) == CleanEmptyLines(content)
  {
    PythonScanner.ScanIdentity(content, PythonScanner.Code, []);
    assert [] + content == content;
    assert PythonScanner.StripPython(content) == content;
    assert Strip(content, Python, html) == content;
  }

  /** CSS text with no quotes and no slash-star only has its blank lines
      collapsed. */
  lemma CssCommentFree(content: string, html: string -> string)
    requires '"' !in content && '\'' !in content && CssScanner.NoOpener(content)
    ensures CleanComments(content, Css, html) == CleanEmptyLines(content)
  {
    CssScanner.ScanIdentity(content);
    assert CssScanner.StripCss(content) == content;
    assert Strip(content, Css, html) == content;
  }

  /** PHP text with none of its special characters only has its blank lines
      collapsed. */
  lemma PhpCommentFree(content: string, html: string -> string)
    requires '"' !in content && '\'' !in content && '\\' !in content
    requires '#' !in content && '/' !in content
    ensures CleanComments(content, Php, html) == CleanEmptyLines(content)
  {
    PhpScanner.ScanIdentity(content);
    assert PhpScanner.StripPhp(content) == content;
    assert Strip(content, Php, html) == content;
  }

  /** BASIC text with no quotes, apostrophes or letter R only has its blank
      lines collapsed. */
  lemma BasicCommentFree(content: string, html: string -> string)
    requires '"' !in content && '\'' !in content && 'R' !in content && 'r' !in content
    ensures CleanComments(content, Basic, html) == CleanEmptyLines(content)
  {
    BasicScanner.ScanIdentity(content);
    assert BasicScanner.StripBasic(content) == content;
    assert Strip(content, Basic, html) == content;
  }
}

=== FILE: css.dfy ===
/**
  The CSS scanner. It removes `/* ... */` block comments and copies quoted
  strings, in either quote, verbatim with their backslash pairs. CSS has no
  line comments, so `//` is ordinary text, and a backslash outside a string
  is ordinary text too.
 */
module CssScanner {
  import opened Scanning

  datatype Mode = Code | InString(quote: char)

  /** One iteration of the scanner loop. */
  function StepOf(s: string, m: Mode): (p: Step<Mode>)
    requires s != []
    ensures Advances(p, s)
  {
    var ch := s[0];
    match m
    case InString(q) =>
      if ch == '\\' then (if |s| == 1 then Step(0, 1, m) else Step(2, 2, m))
      else if ch == q then Step(1, 1, Code)
      else Step(1, 1, m)
    case Code =>
      if IsQuote(ch) then Step(1, 1, InString(ch))
      else if ch == '/' && |s| > 1 && s[1] == '*' then Step(0, 2 + BlockEnd(s[2..]), Code)
      else Step(1, 1, Code)
  }

  /** The scanner loop from mode `m` to the end of `s`. */
  function ScanFrom(s: string, m: Mode): (r: string)
    ensures |r| <= |s|
    decreases |s|
  {
    if s == [] then []
    else
      var p := StepOf(s, m);
      s[..p.keep] + ScanFrom(s[p.used..], p.next)
  }

  /** The CSS comment stripper: its output is the input with characters
      deleted, never reordered or invented. */
  function StripCss(s: string): (r: string)
    ensures Subseq(r, s)
    ensures |r| <= |s|
  {
    ScanSubseq(s, Code);
    ScanFrom(s, Code)
  }

  lemma {:induction false} ScanSubseq(s: string, m: Mode)
    ensures Subseq(ScanFrom(s, m), s)
    decreases |s|
  {
    if s != [] {
      var p := StepOf(s, m);
      ScanSubseq(s[p.used..], p.next);
      SubseqChunk(s, p.keep, p.used, ScanFrom(s[p.used..], p.next));
    }
  }

  /** The scanner loop runs one iteration and continues from where it left off. */
  lemma Unfold(s: string, m: Mode)
    requires s != []
    ensures ScanFrom(s, m) == s[..StepOf(s, m).keep] + ScanFrom(s[StepOf(s, m).used..], StepOf(s, m).next)
  {
  }

  /** A block comment is removed through its closing star-slash, newlines included. */
  lemma BlockCommentRemoved(body: string, rest: string)
    requires NoCloser(body)
    ensures ScanFrom("/*" + body + "*/" + rest, Code) == ScanFrom(rest, Code)
  {
    var s := "/*" + body + "*/" + rest;
    assert s[2..] == body + "*/" + rest;
    BlockEndAfter(body, rest);
    assert s[2 + |body| + 2..] == rest;
    assert s[..0] == [];
    Unfold(s, Code);
  }

  /** An unterminated block comment swallows the rest of the input. */
  lemma BlockCommentUnterminated(body: string)
    requires NoCloser(body)
    ensures ScanFrom("/*" + body, Code) == []
  {
    var s := "/*" + body;
    assert s[2..] == body;
    assert BlockEnd(body) == |body|;
    assert s[2 + |body|..] == [];
  }

  /** CSS has no line comments: a double slash is copied. */
  lemma DoubleSlashKept(rest: string)
    ensures ScanFrom("//" + rest, Code) == "/" + ScanFrom("/" + rest, Code)
  {
    var s := "//" + rest;
    assert s[1..] == "/" + rest;
    Unfold(s, Code);
  }

  /** The three ways an iteration inside a string can go. */
  lemma StringStep(s: string, q: char)
    requires IsQuote(q) && s != []
    ensures s[0] == '\\' && |s| >= 2 ==> StepOf(s, InString(q)) == Step(2, 2, InString(q))
    ensures s[0] == q ==> StepOf(s, InString(q)) == Step(1, 1, Code)
    ensures s[0] != '\\' && s[0] != q ==> StepOf(s, InString(q)) == Step(1, 1, InString(q))
  {
  }

  /** What `StringBodyCopied` states for body `b`. */
  predicate CopiesString(b: string, q: char, rest: string) {
    ScanFrom(b + [q] + rest, InString(q)) == b + [q] + ScanFrom(rest, Code)
  }

  /** The escape case of `StringBodyCopied`, given the claim for the body after the pair. */
  lemma StringCopiedEscape(b: string, q: char, rest: string)
    requires IsQuote(q) && |b| >= 2 && b[0] == '\\'
    requires CopiesString(b[2..], q, rest)
    ensures CopiesString(b, q, rest)
  {
    var s := b + [q] + rest;
    StringStep(s, q);
    Unfold(s, InString(q));
    Regroup(b, q, rest, ScanFrom(rest, Code), 2);
  }

  /** The plain-character case of `StringBodyCopied`, given the claim for the rest of the body. */
  lemma StringCopiedPlain(b: string, q: char, rest: string)
    requires IsQuote(q) && b != [] && b[0] != '\\' && b[0] != q
    requires CopiesString(b[1..], q, rest)
    ensures CopiesString(b, q, rest)
  {
    var s := b + [q] + rest;
    StringStep(s, q);
    Unfold(s, InString(q));
    Regroup(b, q, rest, ScanFrom(rest, Code), 1);
  }

  /** Inside a string, a well-formed body and its closing quote are copied. */
  lemma {:induction false} StringBodyCopied(b: string, q: char, rest: string)
    requires IsQuote(q) && LiteralBody(b, q)
    ensures CopiesString(b, q, rest)
    decreases |b|
  {
    if b == [] {
      var s := b + [q] + rest;
      StringStep(s, q);
      Unfold(s, InString(q));
      assert s[1..] == rest && s[..1] == [q];
    } else if b[0] == '\\' && |b| >= 2 && LiteralBody(b[2..], q) {
      StringBodyCopied(b[2..], q, rest);
      StringCopiedEscape(b, q, rest);
    } else {
      StringBodyCopied(b[1..], q, rest);
      StringCopiedPlain(b, q, rest);
    }
  }

  /** A quoted string is copied verbatim, comment markers and escaped quotes
      included. */
  lemma StringCopied(q: char, b: string, rest: string)
    requires IsQuote(q) && LiteralBody(b, q)
    ensures ScanFrom([q] + b + [q] + rest, Code) == [q] + b + [q] + ScanFrom(rest, Code)
  {
    var s := [q] + b + [q] + rest;
    Enclose(q, b, rest, ScanFrom(rest, Code));
    Unfold(s, Code);
    StringBodyCopied(b, q, rest);
  }

  /** A backslash pending at the end of the input inside a string is lost. */
  lemma {:induction false} PendingEscapeLost(b: string, q: char)
    requires IsQuote(q) && LiteralBody(b, q)
    ensures ScanFrom(b + "\\", InString(q)) == b
    decreases |b|
  {
    var s := b + "\\";
    if b == [] {
    } else if b[0] == '\\' && |b| >= 2 && LiteralBody(b[2..], q) {
      PendingEscapeLost(b[2..], q);
      Split(b, "\\", 2);
      Unfold(s, InString(q));
    } else {
      PendingEscapeLost(b[1..], q);
      Split(b, "\\", 1);
      Unfold(s, InString(q));
    }
  }

  /** Outside strings a backslash is ordinary text: it does not guard a quote. */
  lemma BackslashKeptInCode(rest: string)
    ensures ScanFrom("\\" + rest, Code) == "\\" + ScanFrom(rest, Code)
  {
    var s := "\\" + rest;
    assert s[1..] == rest;
    Unfold(s, Code);
  }

  /** No slash is followed by a star. */
  predicate NoOpener(s: string) {
    forall i :: 0 <= i < |s| - 1 ==> !(s[i] == '/' && s[i + 1] == '*')
  }

  /** Text without a slash-star and without quotes is copied unchanged. */
  lemma {:induction false} ScanIdentity(s: string)
    requires '"' !in s && '\'' !in s && NoOpener(s)
    ensures ScanFrom(s, Code) == s
    decreases |s|
  {
    if s != [] {
      assert StepOf(s, Code) == Step(1, 1, Code);
      forall i | 0 <= i < |s[1..]| - 1
        ensures !(s[1..][i] == '/' && s[1..][i + 1] == '*')
      {
        assert s[1..][i] == s[i + 1] && s[1..][i + 1] == s[i + 2];
      }
      ScanIdentity(s[1..]);
      Unfold(s, Code);
      assert s[..1] + s[1..] == s;
    }
  }
}

=== FILE: cstyle.dfy ===
/**
  The C-style scanner, used for C, C++, Java, JavaScript, TypeScript and Rust.
  It removes line comments and block comments and copies string, character,
  template and regular-expression literals unchanged. One call of `StepOf`
  is one iteration of the scanner's loop; `ScanFrom` runs the loop to the end
  of the input.
 */
module CStyleScanner {
  import opened Scanning

  /** Where the scanner is: in code, or inside one kind of literal. Inside a
      regex it also remembers whether it is in a `[...]` class and whether the
      previous character was a guarding backslash. */
  datatype Mode = Code | InString | InChar | InTemplate | InRegex(inClass: bool, escaped: bool)

  /** The mode plus the last non-whitespace character appended, which decides
      whether a slash opens a regex. */
  datatype State = State(mode: Mode, prevNonWs: Option<char>)

  const Start := State(Code, None)

  /** The last non-whitespace character after appending `c`. */
  function Track(prev: Option<char>, c: char): Option<char> {
    if IsWhitespace(c) then prev else Some(c)
  }

  /** A slash may open a regex unless it follows an operand: a letter, a
      digit, a closing bracket of any kind, or a dot. */
  predicate RegexMayStart(prev: Option<char>) {
    match prev
    case None => true
    case Some(p) => !(IsAsciiAlphanumeric(p) || p == ')' || p == ']' || p == '}' || p == '.')
  }

  /** The closing delimiter of the quoted literal modes; each mode has its own. */
  function Delimiter(m: Mode): (q: char)
    requires m.InString? || m.InChar? || m.InTemplate?
    ensures q == '"' <==> m.InString?
    ensures q == '\'' <==> m.InChar?
    ensures q == '`' <==> m.InTemplate?
  {
    match m
    case InString => '"'
    case InChar => '\''
    case InTemplate => '`'
  }

  /** A backslash inside a quoted literal: it and the character after it are
      copied as a pair; a backslash at the very end of the input is lost. */
  function EscapeStep(s: string, st: State): (p: Step<State>)
    requires s != []
    ensures Advances(p, s) && p.next == st
    ensures p.keep == p.used || (|s| == 1 && p.keep == 0)
    ensures |s| >= 2 ==> p.used == 2
  {
    if |s| == 1 then Step(0, 1, st) else Step(2, 2, st)
  }

  /** One iteration in code. */
  function CodeStep(s: string, st: State): (p: Step<State>)
    requires s != []
    ensures Advances(p, s) && p.keep <= 1
    ensures p.keep == 0 ==> |s| >= 2 && s[0] == '/' && (s[1] == '/' || s[1] == '*')
  {
    var ch := s[0];
    var prev := st.prevNonWs;
    if ch == '\\' then Step(1, 1, State(Code, Track(prev, ch)))
    else if ch == '"' then Step(1, 1, State(InString, prev))
    else if ch == '\'' then Step(1, 1, State(InChar, prev))
    else if ch == '`' then Step(1, 1, State(InTemplate, prev))
    else if ch == '/' && |s| > 1 && s[1] == '/' then Step(0, 2 + LineEnd(s[2..]), st)
    else if ch == '/' && |s| > 1 && s[1] == '*' then Step(0, 2 + BlockEnd(s[2..]), st)
    else if ch == '/' && |s| > 1 && s[1] != '=' && RegexMayStart(prev) then
      Step(1, 1, State(InRegex(false, false), Track(prev, ch)))
    else Step(1, 1, State(Code, Track(prev, ch)))
  }

  /** One iteration inside a regex literal: everything is copied; a backslash
      guards the next character; an unguarded slash outside a class closes. */
  function RegexStep(s: string, st: State): (p: Step<State>)
    requires s != [] && st.mode.InRegex?
    ensures p.keep == 1 && p.used == 1
    ensures p.next.mode.InRegex? || p.next.mode == Code
    ensures p.next.mode == Code ==> s[0] == '/' && !st.mode.inClass && !st.mode.escaped
    ensures s[0] == '\\' ==> p.next.mode.InRegex? && p.next.mode.escaped
  {
    var ch := s[0];
    var cls := st.mode.inClass;
    if ch == '\\' then Step(1, 1, State(InRegex(cls, true), st.prevNonWs))
    else
      var m :=
        if st.mode.escaped then InRegex(cls, false)
        else if ch == '[' then InRegex(true, false)
        else if ch == ']' then InRegex(false, false)
        else if ch == '/' && !cls then Code
        else st.mode;
      Step(1, 1, State(m, Track(st.prevNonWs, ch)))
  }

  /** One iteration of the scanner loop. */
  function StepOf(s: string, st: State): (p: Step<State>)
    requires s != []
    ensures Advances(p, s)
  {
    var ch := s[0];
    match st.mode
    case Code => CodeStep(s, st)
    case InRegex(_, _) => RegexStep(s, st)
    case InTemplate =>
      if ch == '\\' then EscapeStep(s, st)
      else Step(1, 1, State(if ch == '`' then Code else InTemplate, Track(st.prevNonWs, ch)))
    case _ =>
      if ch == '\\' then EscapeStep(s, st)
      else if ch == Delimiter(st.mode) then Step(1, 1, State(Code, st.prevNonWs))
      else Step(1, 1, State(st.mode, Track(st.prevNonWs, ch)))
  }

  /** The scanner loop from state `st` to the end of `s`. */
  function ScanFrom(s: string, st: State): (r: string)
    ensures |r| <= |s|
    decreases |s|
  {
    if s == [] then []
    else
      var p := StepOf(s, st);
      s[..p.keep] + ScanFrom(s[p.used..], p.next)
  }

  /** The C-style comment stripper: its output is the input with characters
      deleted, never reordered or invented. */
  function StripCStyle(s: string): (r: string)
    ensures Subseq(r, s)
    ensures |r| <= |s|
  {
    ScanSubseq(s, Start);
    ScanFrom(s, Start)
  }

  lemma {:induction false} ScanSubseq(s: string, st: State)
    ensures Subseq(ScanFrom(s, st), s)
    decreases |s|
  {
    if s != [] {
      var p := StepOf(s, st);
      ScanSubseq(s[p.used..], p.next);
      SubseqChunk(s, p.keep, p.used, ScanFrom(s[p.used..], p.next));
    }
  }

  /** Text without slashes and backslashes has no comments and no escapes:
      the scanner copies it whatever mode it starts in. */
  lemma {:induction false} ScanIdentity(s: string, st: State)
    requires '/' !in s && '\\' !in s
    ensures ScanFrom(s, st) == s
    decreases |s|
  {
    if s != [] {
      var p := StepOf(s, st);
      assert p.keep == 1 && p.used == 1;
      ScanIdentity(s[1..], p.next);
      Unfold(s, st);
      assert s[..1] + s[1..] == s;
    }
  }

  /** The scanner resumes in state `st` after a consumed chunk it drops entirely. */
  lemma DropChunk(s: string, n: nat, st: State)
    requires s != [] && n <= |s|
    requires StepOf(s, st) == Step(0, n, st)
    ensures ScanFrom(s, st) == ScanFrom(s[n..], st)
  {
  }

  /** A line comment in code is removed up to, not including, the newline. */
  lemma LineCommentRemoved(body: string, rest: string, prev: Option<char>)
    requires '\n' !in body
    requires rest == [] || rest[0] == '\n'
    ensures ScanFrom("//" + body + rest, State(Code, prev)) == ScanFrom(rest, State(Code, prev))
  {
    var s := "//" + body + rest;
    assert s[2..] == body + rest;
    LineEndAt(body, rest);
    assert s[2 + |body|..] == rest;
    DropChunk(s, 2 + |body|, State(Code, prev));
  }

  /** A block comment in code is removed through its closing star-slash,
      newlines included. */
  lemma BlockCommentRemoved(body: string, rest: string, prev: Option<char>)
    requires NoCloser(body)
    ensures ScanFrom("/*" + body + "*/" + rest, State(Code, prev)) == ScanFrom(rest, State(Code, prev))
  {
    var s := "/*" + body + "*/" + rest;
    assert s[2..] == body + "*/" + rest;
    BlockEndAfter(body, rest);
    assert s[2 + |body| + 2..] == rest;
    DropChunk(s, 2 + |body| + 2, State(Code, prev));
  }

  /** The star of the opener also counts as the star of a closer: slash, star,
      slash is a complete comment. */
  lemma SlashStarSlashCloses(rest: string, prev: Option<char>)
    ensures ScanFrom("/*/" + rest, State(Code, prev)) == ScanFrom(rest, State(Code, prev))
  {
    var s := "/*/" + rest;
    assert s[2..] == "/" + rest;
    assert ClosesAt(s[2..], 0, '*');
    assert BlockEnd(s[2..]) == 1;
    assert s[3..] == rest;
    DropChunk(s, 3, State(Code, prev));
  }

  /** An unterminated block comment swallows the rest of the input. */
  lemma BlockCommentUnterminated(body: string, prev: Option<char>)
    requires NoCloser(body)
    ensures ScanFrom("/*" + body, State(Code, prev)) == []
  {
    var s := "/*" + body;
    assert s[2..] == body;
    assert BlockEnd(body) == |body|;
    assert s[2 + |body|..] == [];
  }

  /** The last non-whitespace character after copying a literal body from
      `prev`; the character after a backslash is not tracked. */
  function LiteralPrev(b: string, prev: Option<char>): (r: Option<char>)
    ensures r == prev || (r.Some? && r.value in b && !IsWhitespace(r.value))
    decreases |b|
  {
    if b == [] then prev
    else if b[0] == '\\' && |b| >= 2 then LiteralPrev(b[2..], prev)
    else LiteralPrev(b[1..], Track(prev, b[0]))
  }

  /** Mode after a quoted literal's closing delimiter: strings and characters
      leave the tracked character alone, a template's backtick is tracked. */
  function AfterClose(m: Mode, prev: Option<char>): Option<char>
    requires m.InString? || m.InChar? || m.InTemplate?
  {
    if m.InTemplate? then Some('`') else prev
  }

  /** The scanner loop runs one iteration and continues from where it left off. */
  lemma Unfold(s: string, st: State)
    requires s != []
    ensures ScanFrom(s, st)
         == s[..StepOf(s, st).keep] + ScanFrom(s[StepOf(s, st).used..], StepOf(s, st).next)
  {
  }

  /** One iteration inside a quoted literal. */
  lemma LiteralStep(s: string, m: Mode, prev: Option<char>)
    requires m.InString? || m.InChar? || m.InTemplate?
    requires s != []
    ensures s[0] == '\\' && |s| >= 2 ==> StepOf(s, State(m, prev)) == Step(2, 2, State(m, prev))
    ensures s[0] == Delimiter(m)
        ==> StepOf(s, State(m, prev)) == Step(1, 1, State(Code, AfterClose(m, prev)))
    ensures s[0] != '\\' && s[0] != Delimiter(m)
        ==> StepOf(s, State(m, prev)) == Step(1, 1, State(m, Track(prev, s[0])))
  {
  }

  /** An iteration that keeps everything it consumes puts those characters in
      front of whatever the rest of the scan produces. */
  lemma KeepAll(s: string, n: nat, st: State, st': State, x: string)
    requires 0 < n <= |s|
    requires StepOf(s, st) == Step(n, n, st')
    requires ScanFrom(s[n..], st') == x
    ensures ScanFrom(s, st) == s[..n] + x
  {
    Unfold(s, st);
  }

  /** The closing delimiter of a literal is copied and ends it. */
  lemma LiteralCloses(s: string, m: Mode, prev: Option<char>)
    requires m.InString? || m.InChar? || m.InTemplate?
    requires s != [] && s[0] == Delimiter(m)
    ensures ScanFrom(s, State(m, prev)) == [s[0]] + ScanFrom(s[1..], State(Code, AfterClose(m, prev)))
  {
    LiteralStep(s, m, prev);
    Unfold(s, State(m, prev));
  }

  /** A backslash pair inside a literal is copied and the literal goes on. */
  lemma LiteralEscapes(s: string, m: Mode, prev: Option<char>)
    requires m.InString? || m.InChar? || m.InTemplate?
    requires |s| >= 2 && s[0] == '\\'
    ensures ScanFrom(s, State(m, prev)) == s[..2] + ScanFrom(s[2..], State(m, prev))
  {
    LiteralStep(s, m, prev);
    Unfold(s, State(m, prev));
  }

  /** Any other character inside a literal is copied and tracked. */
  lemma LiteralContinues(s: string, m: Mode, prev: Option<char>)
    requires m.InString? || m.InChar? || m.InTemplate?
    requires s != [] && s[0] != '\\' && s[0] != Delimiter(m)
    ensures ScanFrom(s, State(m, prev)) == [s[0]] + ScanFrom(s[1..], State(m, Track(prev, s[0])))
  {
    LiteralStep(s, m, prev);
    Unfold(s, State(m, prev));
  }

  /** What `LiteralCopied` states for body `b`. */
  predicate CopiesLiteral(b: string, rest: string, m: Mode, prev: Option<char>)
    requires m.InString? || m.InChar? || m.InTemplate?
  {
    ScanFrom(b + [Delimiter(m)] + rest, State(m, prev))
      == b + [Delimiter(m)] + ScanFrom(rest, State(Code, AfterClose(m, LiteralPrev(b, prev))))
  }

  /** The escape case of `LiteralCopied`, given the claim for the body after the pair. */
  lemma LiteralCopiedEscape(b: string, rest: string, m: Mode, prev: Option<char>)
    requires m.InString? || m.InChar? || m.InTemplate?
    requires |b| >= 2 && b[0] == '\\'
    requires CopiesLiteral(b[2..], rest, m, prev)
    ensures CopiesLiteral(b, rest, m, prev)
  {
    var q := Delimiter(m);
    var s := b + [q] + rest;
    var tail := ScanFrom(rest, State(Code, AfterClose(m, LiteralPrev(b, prev))));
    LiteralEscapes(s, m, prev);
    Regroup(b, q, rest, tail, 2);
  }

  /** The plain-character case of `LiteralCopied`, given the claim for the rest of the body. */
  lemma LiteralCopiedPlain(b: string, rest: string, m: Mode, prev: Option<char>)
    requires m.InString? || m.InChar? || m.InTemplate?
    requires b != [] && b[0] != '\\' && b[0] != Delimiter(m)
    requires CopiesLiteral(b[1..], rest, m, Track(prev, b[0]))
    ensures CopiesLiteral(b, rest, m, prev)
  {
    var q := Delimiter(m);
    var s := b + [q] + rest;
    var tail := ScanFrom(rest, State(Code, AfterClose(m, LiteralPrev(b, prev))));
    LiteralContinues(s, m, prev);
    Regroup(b, q, rest, tail, 1);
    assert s[..1] == [s[0]];
  }

  /** Inside a quoted literal, a well-formed body and its delimiter are copied
      verbatim; comment markers in it do nothing. */
  lemma {:induction false} LiteralCopied(b: string, rest: string, m: Mode, prev: Option<char>)
    requires m.InString? || m.InChar? || m.InTemplate?
    requires LiteralBody(b, Delimiter(m))
    ensures ScanFrom(b + [Delimiter(m)] + rest, State(m, prev))
         == b + [Delimiter(m)] + ScanFrom(rest, State(Code, AfterClose(m, LiteralPrev(b, prev))))
    decreases |b|
  {
    if b == [] {
      var s := b + [Delimiter(m)] + rest;
      LiteralCloses(s, m, prev);
      assert s[1..] == rest;
    } else if b[0] == '\\' && |b| >= 2 && LiteralBody(b[2..], Delimiter(m)) {
      LiteralCopied(b[2..], rest, m, prev);
      LiteralCopiedEscape(b, rest, m, prev);
    } else {
      LiteralCopied(b[1..], rest, m, Track(prev, b[0]));
      LiteralCopiedPlain(b, rest, m, prev);
    }
  }

  /** An unterminated literal is copied to the end of the input. */
  lemma {:induction false} LiteralRunsToEnd(b: string, m: Mode, prev: Option<char>)
    requires m.InString? || m.InChar? || m.InTemplate?
    requires LiteralBody(b, Delimiter(m))
    ensures ScanFrom(b, State(m, prev)) == b
    decreases |b|
  {
    if b == [] {
    } else if b[0] == '\\' && |b| >= 2 && LiteralBody(b[2..], Delimiter(m)) {
      LiteralRunsToEnd(b[2..], m, prev);
      assert b[..2] + b[2..] == b;
    } else {
      LiteralRunsToEnd(b[1..], m, Track(prev, b[0]));
      assert b[..1] + b[1..] == b;
    }
  }

  /** A backslash pending at the end of the input is lost. */
  lemma {:induction false} PendingEscapeLost(b: string, m: Mode, prev: Option<char>)
    requires m.InString? || m.InChar? || m.InTemplate?
    requires LiteralBody(b, Delimiter(m))
    ensures ScanFrom(b + "\\", State(m, prev)) == b
    decreases |b|
  {
    var s := b + "\\";
    if b == [] {
    } else if b[0] == '\\' && |b| >= 2 && LiteralBody(b[2..], Delimiter(m)) {
      PendingEscapeLost(b[2..], m, prev);
      Split(b, "\\", 2);
      Unfold(s, State(m, prev));
    } else {
      PendingEscapeLost(b[1..], m, Track(prev, b[0]));
      Split(b, "\\", 1);
      Unfold(s, State(m, prev));
    }
  }

  /** Opening a quoted literal in code copies the delimiter and enters its mode. */
  lemma OpenLiteral(s: string, m: Mode, prev: Option<char>)
    requires m.InString? || m.InChar? || m.InTemplate?
    requires s != [] && s[0] == Delimiter(m)
    ensures ScanFrom(s, State(Code, prev)) == [s[0]] + ScanFrom(s[1..], State(m, prev))
  {
  }

  /** In code, a quoted literal is copied verbatim, delimiters included. */
  lemma QuotedCopied(b: string, rest: string, m: Mode, prev: Option<char>)
    requires m.InString? || m.InChar? || m.InTemplate?
    requires LiteralBody(b, Delimiter(m))
    ensures ScanFrom([Delimiter(m)] + b + [Delimiter(m)] + rest, State(Code, prev))
         == [Delimiter(m)] + b + [Delimiter(m)] + ScanFrom(rest, State(Code, AfterClose(m, LiteralPrev(b, prev))))
  {
    var q := Delimiter(m);
    var tail := ScanFrom(rest, State(Code, AfterClose(m, LiteralPrev(b, prev))));
    Enclose(q, b, rest, tail);
    OpenLiteral([q] + b + [q] + rest, m, prev);
    LiteralCopied(b, rest, m, prev);
  }

  /** In code, a double-quoted string is copied verbatim, including an
      escaped quote and any comment markers in it. */
  lemma StringCopied(b: string, rest: string, prev: Option<char>)
    requires LiteralBody(b, '"')
    ensures ScanFrom("\"" + b + "\"" + rest, State(Code, prev))
         == "\"" + b + "\"" + ScanFrom(rest, State(Code, LiteralPrev(b, prev)))
  {
    QuotedCopied(b, rest, InString, prev);
  }

  /** In code, a character literal is copied verbatim. */
  lemma CharCopied(b: string, rest: string, prev: Option<char>)
    requires LiteralBody(b, '\'')
    ensures ScanFrom("'" + b + "'" + rest, State(Code, prev))
         == "'" + b + "'" + ScanFrom(rest, State(Code, LiteralPrev(b, prev)))
  {
    QuotedCopied(b, rest, InChar, prev);
  }

  /** In code, a template literal is copied verbatim, interpolations and all;
      afterwards the backtick is the last tracked character. */
  lemma TemplateCopied(b: string, rest: string, prev: Option<char>)
    requires LiteralBody(b, '`')
    ensures ScanFrom("`" + b + "`" + rest, State(Code, prev))
         == "`" + b + "`" + ScanFrom(rest, State(Code, Some('`')))
  {
    QuotedCopied(b, rest, InTemplate, prev);
  }

  /** In code, a slash followed by something other than slash or star opens a
      regex exactly when it is not followed by `=` and does not follow an
      operand; either way the slash itself is copied. */
  lemma RegexDecision(s: string, prev: Option<char>)
    requires |s| >= 2 && s[0] == '/' && s[1] != '/' && s[1] != '*'
    ensures StepOf(s, State(Code, prev)).keep == 1
    ensures StepOf(s, State(Code, prev)).next.mode.InRegex?
        <==> s[1] != '=' && RegexMayStart(prev)
  {
  }

  /** A regex body read after its opening slash, in the scanner's terms: a
      backslash guards the next character that is not itself a backslash,
      `[` and `]` open and close a class in which a slash is plain, and an
      unguarded slash outside a class would close the regex. The body must
      end unguarded and outside a class, so that the next slash closes it. */
  predicate RegexBody(b: string, inClass: bool, escaped: bool)
    decreases |b|
  {
    if b == [] then !inClass && !escaped
    else if b[0] == '\\' then RegexBody(b[1..], inClass, true)
    else if escaped then RegexBody(b[1..], inClass, false)
    else if b[0] == '[' then RegexBody(b[1..], true, false)
    else if b[0] == ']' then RegexBody(b[1..], false, false)
    else if b[0] == '/' then inClass && RegexBody(b[1..], inClass, false)
    else RegexBody(b[1..], inClass, false)
  }

  /** Inside a regex, the body and the closing slash are copied verbatim. */
  lemma {:induction false} RegexBodyCopied(b: string, rest: string, cls: bool, esc: bool, prev: Option<char>)
    requires RegexBody(b, cls, esc)
    ensures ScanFrom(b + "/" + rest, State(InRegex(cls, esc), prev))
         == b + "/" + ScanFrom(rest, State(Code, Some('/')))
    decreases |b|
  {
    var s := b + "/" + rest;
    if b == [] {
      assert s[1..] == rest;
    } else {
      var p := StepOf(s, State(InRegex(cls, esc), prev));
      assert p.keep == 1 && p.used == 1;
      Regroup(b, '/', rest, ScanFrom(rest, State(Code, Some('/'))), 1);
      RegexBodyCopied(b[1..], rest, p.next.mode.inClass, p.next.mode.escaped, p.next.prevNonWs);
      Unfold(s, State(InRegex(cls, esc), prev));
    }
  }

  /** A regex body that has not been closed: the same guard and class rules
      as `RegexBody`, but it may end anywhere. */
  predicate RegexOpen(b: string, inClass: bool, escaped: bool)
    decreases |b|
  {
    if b == [] then true
    else if b[0] == '\\' then RegexOpen(b[1..], inClass, true)
    else if escaped then RegexOpen(b[1..], inClass, false)
    else if b[0] == '[' then RegexOpen(b[1..], true, false)
    else if b[0] == ']' then RegexOpen(b[1..], false, false)
    else if b[0] == '/' then inClass && RegexOpen(b[1..], inClass, false)
    else RegexOpen(b[1..], inClass, false)
  }

  /** An unterminated regex is copied to the end of the input. */
  lemma {:induction false} RegexRunsToEnd(b: string, cls: bool, esc: bool, prev: Option<char>)
    requires RegexOpen(b, cls, esc)
    ensures ScanFrom(b, State(InRegex(cls, esc), prev)) == b
    decreases |b|
  {
    if b != [] {
      var p := StepOf(b, State(InRegex(cls, esc), prev));
      assert p.keep == 1 && p.used == 1 && p.next.mode.InRegex?;
      RegexRunsToEnd(b[1..], p.next.mode.inClass, p.next.mode.escaped, p.next.prevNonWs);
      Unfold(b, State(InRegex(cls, esc), prev));
      assert b[..1] + b[1..] == b;
    }
  }

  /** A regex literal in code, where a regex may start, is copied verbatim:
      comment markers inside it are inert. */
  lemma RegexCopied(b: string, rest: string, prev: Option<char>)
    requires RegexMayStart(prev)
    requires b != [] && b[0] != '*' && b[0] != '='
    requires RegexBody(b, false, false)
    ensures ScanFrom("/" + b + "/" + rest, State(Code, prev))
         == "/" + b + "/" + ScanFrom(rest, State(Code, Some('/')))
  {
    var s := "/" + b + "/" + rest;
    var x := ScanFrom(rest, State(Code, Some('/')));
    Enclose('/', b, rest, x);
    assert s[1] == b[0] && b[0] != '/';
    assert StepOf(s, State(Code, prev)) == Step(1, 1, State(InRegex(false, false), Some('/')));
    RegexBodyCopied(b, rest, false, false, Some('/'));
    KeepAll(s, 1, State(Code, prev), State(InRegex(false, false), Some('/')), b + "/" + x);
    assert s[..1] == "/";
  }

  /** Inside a regex a backslash always sets the guard, even when it is itself
      guarded, so a doubled backslash still guards the slash after it: that
      slash is copied without closing the regex. */
  lemma DoubledBackslashGuardsSlash(rest: string, cls: bool, prev: Option<char>)
    ensures ScanFrom("\\\\/" + rest, State(InRegex(cls, false), prev))
         == "\\\\/" + ScanFrom(rest, State(InRegex(cls, false), Some('/')))
  {
    var s := "\\\\/" + rest;
    var x := ScanFrom(rest, State(InRegex(cls, false), Some('/')));
    var guarded := State(InRegex(cls, true), prev);
    assert s[2..] == "/" + rest && s[2..][1..] == rest;
    KeepAll(s[2..], 1, guarded, State(InRegex(cls, false), Some('/')), x);
    assert s[1..][1..] == s[2..];
    KeepAll(s[1..], 1, guarded, guarded, s[2..][..1] + x);
    KeepAll(s, 1, State(InRegex(cls, false), prev), guarded, s[1..][..1] + (s[2..][..1] + x));
    assert s[..1] + (s[1..][..1] + (s[2..][..1] + x)) == "\\\\/" + x;
  }
}

=== FILE: languages.dfy ===
/**
  The closed set of supported languages and the three ways to name one: by
  file extension, by a user-supplied name, and by its display name. Lookups
  ignore letter case.
 */
module Languages {
  import opened Scanning

  datatype Language = C | Cpp | Java | JavaScript | TypeScript | Python | Html | Css | Php | Rust | Basic

  /** Lower-casing of one character, for ASCII letters. */
  function LowerChar(c: char): (d: char)
    ensures 'A' <= c <= 'Z' ==> d as int == c as int + 32
    ensures !('A' <= c <= 'Z') ==> d == c
  {
    if 'A' <= c <= 'Z' then (c as int + 32) as char else c
  }

  /** `str::to_lowercase`, for ASCII letters. */
  function ToLower(s: string): (r: string)
    ensures |r| == |s|
    ensures forall i :: 0 <= i < |s| ==> r[i] == LowerChar(s[i])
  {
    seq(|s|, i requires 0 <= i < |s| => LowerChar(s[i]))
  }

  /** The extension table, on an already lower-cased extension. */
  function ExtensionTable(e: string): (r: Option<Language>)
    ensures forall l :: r == Some(l) <==> e in Extensions(l)
  {
    match e
    case "c" => Some(C)
    case "h" => Some(C)
    case "cpp" => Some(Cpp)
    case "cc" => Some(Cpp)
    case "cxx" => Some(Cpp)
    case "hpp" => Some(Cpp)
    case "hxx" => Some(Cpp)
    case "java" => Some(Java)
    case "js" => Some(JavaScript)
    case "jsx" => Some(JavaScript)
    case "ts" => Some(TypeScript)
    case "tsx" => Some(TypeScript)
    case "py" => Some(Python)
    case "pyw" => Some(Python)
    case "html" => Some(Html)
    case "htm" => Some(Html)
    case "css" => Some(Css)
    case "php" => Some(Php)
    case "rs" => Some(Rust)
    case "vb" => Some(Basic)
    case "bas" => Some(Basic)
    case "vba" => Some(Basic)
    case "vbs" => Some(Basic)
    case _ => None
  }

  /** The extensions, in lower case, that belong to each language. */
  function Extensions(l: Language): set<string>
  {
    match l
    case C => {"c", "h"}
    case Cpp => {"cpp", "cc", "cxx", "hpp", "hxx"}
    case Java => {"java"}
    case JavaScript => {"js", "jsx"}
    case TypeScript => {"ts", "tsx"}
    case Python => {"py", "pyw"}
    case Html => {"html", "htm"}
    case Css => {"css"}
    case Php => {"php"}
    case Rust => {"rs"}
    case Basic => {"vb", "bas", "vba", "vbs"}
  }

  /** The language of a file extension, in any letter case. */
  function FromExtension(ext: string): (r: Option<Language>)
    ensures r.Some? ==> ToLower(ext) in Extensions(r.value)
  {
    ExtensionTable(ToLower(ext))
  }

  /** The language of a path's extension, if the path has one that is valid
      text; extracting the extension is left to the caller. */
  function FromPath(ext: Option<string>): (r: Option<Language>)
    ensures ext.None? ==> r.None?
    ensures ext.Some? ==> r == FromExtension(ext.value)
  {
    match ext
    case None => None
    case Some(e) => FromExtension(e)
  }

  /** The user-facing name table, on an already lower-cased name. */
  function AliasTable(n: string): (r: Option<Language>)
    ensures forall l :: r == Some(l) <==> n in Aliases(l)
  {
    match n
    case "c" => Some(C)
    case "cpp" => Some(Cpp)
    case "c++" => Some(Cpp)
    case "java" => Some(Java)
    case "js" => Some(JavaScript)
    case "javascript" => Some(JavaScript)
    case "ts" => Some(TypeScript)
    case "typescript" => Some(TypeScript)
    case "python" => Some(Python)
    case "py" => Some(Python)
    case "html" => Some(Html)
    case "css" => Some(Css)
    case "php" => Some(Php)
    case "rust" => Some(Rust)
    case "rs" => Some(Rust)
    case "basic" => Some(Basic)
    case "vb" => Some(Basic)
    case "vba" => Some(Basic)
    case "vbs" => Some(Basic)
    case _ => None
  }

  /** The names, in lower case, that select each language. */
  function Aliases(l: Language): set<string>
  {
    match l
    case C => {"c"}
    case Cpp => {"cpp", "c++"}
    case Java => {"java"}
    case JavaScript => {"js", "javascript"}
    case TypeScript => {"ts", "typescript"}
    case Python => {"python", "py"}
    case Html => {"html"}
    case Css => {"css"}
    case Php => {"php"}
    case Rust => {"rust", "rs"}
    case Basic => {"basic", "vb", "vba", "vbs"}
  }

  /** The language a user names, in any letter case. */
  function FromStr(s: string): (r: Option<Language>)
    ensures r.Some? ==> ToLower(s) in Aliases(r.value)
  {
    AliasTable(ToLower(s))
  }

  /** The display name of a language. */
  function Name(l: Language): (n: string)
    ensures n != []
  {
    match l
    case C => "C"
    case Cpp => "C++"
    case Java => "Java"
    case JavaScript => "JavaScript"
    case TypeScript => "TypeScript"
    case Python => "Python"
    case Html => "HTML"
    case Css => "CSS"
    case Php => "PHP"
    case Rust => "Rust"
    case Basic => "Basic"
  }

  /** An extension maps to a language exactly when its lower-case form is in
      that language's set: the table lists the sets and nothing else. */
  lemma FromExtensionExact(ext: string, l: Language)
    ensures FromExtension(ext) == Some(l) <==> ToLower(ext) in Extensions(l)
  {
  }

  /** An extension in no language's set is not recognised. */
  lemma FromExtensionNone(ext: string)
    requires forall l :: ToLower(ext) !in Extensions(l)
    ensures FromExtension(ext) == None
  {
  }

  /** Extension lookup does not see letter case. */
  lemma FromExtensionIgnoresCase(a: string, b: string)
    requires ToLower(a) == ToLower(b)
    ensures FromExtension(a) == FromExtension(b)
  {
  }

  /** Name lookup does not see letter case. */
  lemma FromStrIgnoresCase(a: string, b: string)
    requires ToLower(a) == ToLower(b)
    ensures FromStr(a) == FromStr(b)
  {
  }

  /** A name selects a language exactly when its lower-case form is in that
      language's alias set. */
  lemma FromStrExact(s: string, l: Language)
    ensures FromStr(s) == Some(l) <==> ToLower(s) in Aliases(l)
  {
  }

  /** A name in no language's alias set is not recognised. */
  lemma FromStrNone(s: string)
    requires forall l :: ToLower(s) !in Aliases(l)
    ensures FromStr(s) == None
  {
  }

  /** Lower-casing, checked character by character. */
  lemma LowerIs(s: string, t: string)
    requires |s| == |t| && forall i :: 0 <= i < |s| ==> LowerChar(s[i]) == t[i]
    ensures ToLower(s) == t
  {
  }

  /** Name lookup goes through the lower-cased name. */
  lemma FromStrOf(s: string, lower: string)
    requires |s| == |lower| && forall i :: 0 <= i < |s| ==> LowerChar(s[i]) == lower[i]
    ensures FromStr(s) == AliasTable(lower)
  {
    LowerIs(s, lower);
  }

  /** Extension lookup goes through the lower-cased extension. */
  lemma FromExtensionOf(s: string, lower: string)
    requires |s| == |lower| && forall i :: 0 <= i < |s| ==> LowerChar(s[i]) == lower[i]
    ensures FromExtension(s) == ExtensionTable(lower)
  {
    LowerIs(s, lower);
  }

  /** Every display name, read back as a user-supplied name, selects its
      language. */
  lemma NameRoundTrip(l: Language)
    ensures FromStr(Name(l)) == Some(l)
  {
    match l
    case C => FromStrOf("C", "c");
    case Cpp => FromStrOf("C++", "c++");
    case Java => FromStrOf("Java", "java");
    case JavaScript => FromStrOf("JavaScript", "javascript");
    case TypeScript => FromStrOf("TypeScript", "typescript");
    case Python => FromStrOf("Python", "python");
    case Html => FromStrOf("HTML", "html");
    case Css => FromStrOf("CSS", "css");
    case Php => FromStrOf("PHP", "php");
    case Rust => FromStrOf("Rust", "rust");
    case Basic => FromStrOf("Basic", "basic");
  }

  /** Different languages have different display names. */
  lemma NameInjective(a: Language, b: Language)
    requires Name(a) == Name(b)
    ensures a == b
  {
    NameRoundTrip(a);
    NameRoundTrip(b);
  }

  /** Some extensions are not accepted as language names. */
  lemma ExtensionsThatAreNotNames()
    ensures FromExtension("h") == Some(C) && FromStr("h") == None
    ensures FromExtension("htm") == Some(Html) && FromStr("htm") == None
    ensures FromExtension("cc") == Some(Cpp) && FromStr("cc") == None
    ensures FromExtension("bas") == Some(Basic) && FromStr("bas") == None
    ensures FromExtension("pyw") == Some(Python) && FromStr("pyw") == None
  {
    LowerIs("h", "h");
    LowerIs("htm", "htm");
    LowerIs("cc", "cc");
    LowerIs("bas", "bas");
    LowerIs("pyw", "pyw");
  }

  /** Some names are not accepted as extensions. */
  lemma NamesThatAreNotExtensions()
    ensures FromStr("c++") == Some(Cpp) && FromExtension("c++") == None
    ensures FromStr("javascript") == Some(JavaScript) && FromExtension("javascript") == None
    ensures FromStr("typescript") == Some(TypeScript) && FromExtension("typescript") == None
  {
    LowerIs("c++", "c++");
    LowerIs("javascript", "javascript");
    LowerIs("typescript", "typescript");
  }

  /** More names that are not accepted as extensions. */
  lemma WordsThatAreNotExtensions()
    ensures FromStr("python") == Some(Python) && FromExtension("python") == None
    ensures FromStr("rust") == Some(Rust) && FromExtension("rust") == None
    ensures FromStr("basic") == Some(Basic) && FromExtension("basic") == None
  {
    LowerIs("python", "python");
    LowerIs("rust", "rust");
    LowerIs("basic", "basic");
  }

  /** Upper-case extensions are recognised. */
  lemma UpperCaseExtension()
    ensures FromExtension("CPP") == Some(Cpp)
    ensures FromExtension("Py") == Some(Python)
    ensures FromPath(Some("JS")) == Some(JavaScript)
    ensures FromPath(Some("txt")) == None
  {
    FromExtensionOf("CPP", "cpp");
    FromExtensionOf("Py", "py");
    FromExtensionOf("JS", "js");
    FromExtensionOf("txt", "txt");
  }
}

=== FILE: php.dfy ===
/**
  The PHP scanner. It removes `//` and `#` line comments and `/* ... */`
  block comments, and copies double- and single-quoted strings verbatim.
  A backslash is special everywhere: inside a string it and the next
  character are copied; outside strings it is copied but the character
  after it is dropped.
 */
module PhpScanner {
  import opened Scanning

  datatype Mode = Code | InString | InChar

  /** The quote that closes a quoted mode. */
  function Delimiter(m: Mode): (q: char)
    requires m != Code
    ensures q == '"' || q == '\''
  {
    if m == InString then '"' else '\''
  }

  /** One iteration of the scanner loop. */
  function StepOf(s: string, m: Mode): (p: Step<Mode>)
    requires s != []
    ensures Advances(p, s)
  {
    var ch := s[0];
    if ch == '\\' then
      if |s| == 1 then Step(0, 1, m)
      else if m == Code then Step(1, 2, m)
      else Step(2, 2, m)
    else if m == Code then
      if ch == '"' then Step(1, 1, InString)
      else if ch == '\'' then Step(1, 1, InChar)
      else if ch == '/' && |s| > 1 && s[1] == '/' then Step(0, 2 + LineEnd(s[2..]), Code)
      else if ch == '/' && |s| > 1 && s[1] == '*' then Step(0, 2 + BlockEnd(s[2..]), Code)
      else if ch == '#' then Step(0, 1 + LineEnd(s[1..]), Code)
      else Step(1, 1, Code)
    else if ch == Delimiter(m) then Step(1, 1, Code)
    else Step(1, 1, m)
  }

  /** The scanner loop from mode `m` to the end of `s`. */
  function ScanFrom(s: string, m: Mode): (r: string)
    ensures |r| <= |s|
    decreases |s|
  {
    if s == [] then []
    else
      var p := StepOf(s, m);
      s[..p.keep] + ScanFrom(s[p.used..], p.next)
  }

  /** The PHP comment stripper: its output is the input with characters
      deleted, never reordered or invented. */
  function StripPhp(s: string): (r: string)
    ensures Subseq(r, s)
    ensures |r| <= |s|
  {
    ScanSubseq(s, Code);
    ScanFrom(s, Code)
  }

  lemma {:induction false} ScanSubseq(s: string, m: Mode)
    ensures Subseq(ScanFrom(s, m), s)
    decreases |s|
  {
    if s != [] {
      var p := StepOf(s, m);
      ScanSubseq(s[p.used..], p.next);
      SubseqChunk(s, p.keep, p.used, ScanFrom(s[p.used..], p.next));
    }
  }

  /** The scanner loop runs one iteration and continues from where it left off. */
  lemma Unfold(s: string, m: Mode)
    requires s != []
    ensures ScanFrom(s, m) == s[..StepOf(s, m).keep] + ScanFrom(s[StepOf(s, m).used..], StepOf(s, m).next)
  {
  }

  /** A `//` comment is removed up to, not including, the newline. */
  lemma SlashCommentRemoved(body: string, rest: string)
    requires '\n' !in body
    requires rest == [] || rest[0] == '\n'
    ensures ScanFrom("//" + body + rest, Code) == ScanFrom(rest, Code)
  {
    var s := "//" + body + rest;
    assert s[2..] == body + rest;
    LineEndAt(body, rest);
    assert s[2 + |body|..] == rest;
    assert s[..0] == [];
    Unfold(s, Code);
  }

  /** A `#` comment is removed up to, not including, the newline. */
  lemma HashCommentRemoved(body: string, rest: string)
    requires '\n' !in body
    requires rest == [] || rest[0] == '\n'
    ensures ScanFrom("#" + body + rest, Code) == ScanFrom(rest, Code)
  {
    var s := "#" + body + rest;
    assert s[1..] == body + rest;
    LineEndAt(body, rest);
    assert s[1 + |body|..] == rest;
    assert s[..0] == [];
    Unfold(s, Code);
  }

  /** A block comment is removed through its closing star-slash, newlines included. */
  lemma BlockCommentRemoved(body: string, rest: string)
    requires NoCloser(body)
    ensures ScanFrom("/*" + body + "*/" + rest, Code) == ScanFrom(rest, Code)
  {
    var s := "/*" + body + "*/" + rest;
    assert s[2..] == body + "*/" + rest;
    BlockEndAfter(body, rest);
    assert s[2 + |body| + 2..] == rest;
    assert s[..0] == [];
    Unfold(s, Code);
  }

  /** Outside strings a backslash is kept and the character after it is
      dropped, whatever it is. */
  lemma BackslashSwallowsNext(c: char, rest: string)
    ensures ScanFrom("\\" + [c] + rest, Code) == "\\" + ScanFrom(rest, Code)
  {
    var s := "\\" + [c] + rest;
    assert s[2..] == rest && s[..1] == "\\";
    Unfold(s, Code);
  }

  /** A backslash at the very end of the input is dropped in every mode. */
  lemma TrailingBackslashDropped(m: Mode)
    ensures ScanFrom("\\", m) == []
  {
    Unfold("\\", m);
  }

  /** The three ways an iteration inside a quoted mode can go. */
  lemma LiteralStep(s: string, m: Mode)
    requires m != Code && s != []
    ensures s[0] == '\\' && |s| >= 2 ==> StepOf(s, m) == Step(2, 2, m)
    ensures s[0] == Delimiter(m) ==> StepOf(s, m) == Step(1, 1, Code)
    ensures s[0] != '\\' && s[0] != Delimiter(m) ==> StepOf(s, m) == Step(1, 1, m)
  {
  }

  /** What `LiteralCopied` states for body `b`. */
  predicate CopiesLiteral(b: string, m: Mode, rest: string)
    requires m != Code
  {
    ScanFrom(b + [Delimiter(m)] + rest, m) == b + [Delimiter(m)] + ScanFrom(rest, Code)
  }

  /** The escape case of `LiteralCopied`, given the claim for the body after the pair. */
  lemma LiteralCopiedEscape(b: string, m: Mode, rest: string)
    requires m != Code && |b| >= 2 && b[0] == '\\'
    requires CopiesLiteral(b[2..], m, rest)
    ensures CopiesLiteral(b, m, rest)
  {
    var s := b + [Delimiter(m)] + rest;
    LiteralStep(s, m);
    Unfold(s, m);
    Regroup(b, Delimiter(m), rest, ScanFrom(rest, Code), 2);
  }

  /** The plain-character case of `LiteralCopied`, given the claim for the rest of the body. */
  lemma LiteralCopiedPlain(b: string, m: Mode, rest: string)
    requires m != Code && b != [] && b[0] != '\\' && b[0] != Delimiter(m)
    requires CopiesLiteral(b[1..], m, rest)
    ensures CopiesLiteral(b, m, rest)
  {
    var s := b + [Delimiter(m)] + rest;
    LiteralStep(s, m);
    Unfold(s, m);
    Regroup(b, Delimiter(m), rest, ScanFrom(rest, Code), 1);
  }

  /** Inside a quoted mode, a well-formed body and its closing quote are copied. */
  lemma {:induction false} LiteralCopied(b: string, m: Mode, rest: string)
    requires m != Code && LiteralBody(b, Delimiter(m))
    ensures CopiesLiteral(b, m, rest)
    decreases |b|
  {
    if b == [] {
      var s := b + [Delimiter(m)] + rest;
      LiteralStep(s, m);
      Unfold(s, m);
      assert s[1..] == rest && s[..1] == [Delimiter(m)];
    } else if b[0] == '\\' && |b| >= 2 && LiteralBody(b[2..], Delimiter(m)) {
      LiteralCopied(b[2..], m, rest);
      LiteralCopiedEscape(b, m, rest);
    } else {
      LiteralCopied(b[1..], m, rest);
      LiteralCopiedPlain(b, m, rest);
    }
  }

  /** In code, a quoted string of either kind is copied verbatim, comment
      markers and escaped quotes included. */
  lemma QuotedCopied(m: Mode, b: string, rest: string)
    requires m != Code && LiteralBody(b, Delimiter(m))
    ensures ScanFrom([Delimiter(m)] + b + [Delimiter(m)] + rest, Code)
         == [Delimiter(m)] + b + [Delimiter(m)] + ScanFrom(rest, Code)
  {
    var q := Delimiter(m);
    var s := [q] + b + [q] + rest;
    Enclose(q, b, rest, ScanFrom(rest, Code));
    assert StepOf(s, Code) == Step(1, 1, m);
    Unfold(s, Code);
    LiteralCopied(b, m, rest);
  }

  /** Text without comment markers, quotes or backslashes is copied unchanged. */
  lemma {:induction false} ScanIdentity(s: string)
    requires '"' !in s && '\'' !in s && '\\' !in s && '#' !in s && '/' !in s
    ensures ScanFrom(s, Code) == s
    decreases |s|
  {
    if s != [] {
      assert StepOf(s, Code) == Step(1, 1, Code);
      ScanIdentity(s[1..]);
      Unfold(s, Code);
      assert s[..1] + s[1..] == s;
    }
  }
}

=== FILE: python.dfy ===
/**
  The Python scanner. It removes `#` comments, and it removes triple-quoted
  blocks unless the text already produced, with trailing whitespace trimmed,
  ends in `=` (then the block is an assigned string and is kept). Quoted
  strings are copied with backslash pairs; outside strings a backslash is
  ordinary text. Because the triple-quote decision reads the output produced
  so far, the loop carries that output along.
 */
module PythonScanner {
  import opened Scanning

  datatype Mode = Code | InString(quote: char)

  /** Rust's `str::trim_end`: the longest prefix not ending in whitespace. */
  function TrimEnd(s: string): (r: string)
    ensures |r| <= |s| && r == s[..|r|]
    ensures forall i :: |r| <= i < |s| ==> IsWhitespace(s[i])
    ensures r == [] || !IsWhitespace(r[|r| - 1])
    decreases |s|
  {
    if s == [] || !IsWhitespace(s[|s| - 1]) then s else TrimEnd(s[..|s| - 1])
  }

  /** The output so far, trailing whitespace aside, ends in `=`: a triple
      quote here starts an assigned string. */
  predicate HasAssignment(out: string) {
    var t := TrimEnd(out);
    t != [] && t[|t| - 1] == '='
  }

  /** Three `q` in a row start at index `i` of `t`. */
  predicate TripleAt(t: string, i: nat, q: char) {
    i + 2 < |t| && t[i] == q && t[i + 1] == q && t[i + 2] == q
  }

  /** Three `q` in a row nowhere in `b`. */
  predicate NoTriple(b: string, q: char) {
    forall i :: 0 <= i < |b| - 2 ==> !(b[i] == q && b[i + 1] == q && b[i + 2] == q)
  }

  /** The inner loop of a triple-quoted block, after its opening quotes:
      characters are consumed until `q` is followed by two more `q`. A pair
      `q q` not followed by a third is consumed as a unit. */
  function TripleEnd(t: string, q: char): (k: nat)
    ensures k <= |t|
    ensures t != [] ==> 0 < k
    ensures k == |t| || (3 <= k && t[k - 3] == q && t[k - 2] == q && t[k - 1] == q)
    ensures forall i :: 0 <= i < k - 3 ==> !TripleAt(t, i, q)
    decreases |t|
  {
    if t == [] then 0
    else if t[0] == q && |t| >= 2 && t[1] == q then
      if |t| >= 3 && t[2] == q then 3
      else
        TripleAtShift(t, 2, q);
        2 + TripleEnd(t[2..], q)
    else
      TripleAtShift(t, 1, q);
      1 + TripleEnd(t[1..], q)
  }

  /** Three quotes at index `i` of a suffix are three quotes `n` later in the whole. */
  lemma TripleAtShift(t: string, n: nat, q: char)
    requires n <= |t|
    ensures forall i: nat :: n <= i ==> (TripleAt(t, i, q) <==> TripleAt(t[n..], i - n, q))
  {
  }

  /** One iteration of the scanner loop; `afterAssign` is `HasAssignment` of the
      output so far. */
  function StepOf(s: string, m: Mode, afterAssign: bool): (p: Step<Mode>)
    requires s != []
    ensures Advances(p, s)
  {
    var ch := s[0];
    match m
    case InString(q) =>
      if ch == '\\' then (if |s| == 1 then Step(0, 1, m) else Step(2, 2, m))
      else if ch == q then Step(1, 1, Code)
      else Step(1, 1, m)
    case Code =>
      if IsQuote(ch) then
        if |s| >= 2 && s[1] == ch then
          if |s| >= 3 && s[2] == ch then
            var n := 3 + TripleEnd(s[3..], ch);
            if afterAssign then Step(n, n, Code) else Step(0, n, Code)
          else Step(2, 2, Code)
        else Step(1, 1, InString(ch))
      else if ch == '#' then Step(0, 1 + LineEnd(s[1..]), Code)
      else Step(1, 1, Code)
  }

  /** The scanner loop from mode `m` with output `out` produced so far; the
      result is the whole output. */
  function ScanFrom(s: string, m: Mode, out: string): (r: string)
    ensures |out| <= |r| <= |out| + |s|
    ensures r[..|out|] == out
    decreases |s|
  {
    if s == [] then out
    else
      var p := StepOf(s, m, HasAssignment(out));
      ScanFrom(s[p.used..], p.next, out + s[..p.keep])
  }

  /** The Python comment stripper: its output is the input with characters
      deleted, never reordered or invented. */
  function StripPython(s: string): (r: string)
    ensures Subseq(r, s)
    ensures |r| <= |s|
  {
    ScanSubseq(s, Code, []);
    ScanFrom(s, Code, [])
  }

  lemma {:induction false} ScanSubseq(s: string, m: Mode, out: string)
    ensures Subseq(ScanFrom(s, m, out)[|out|..], s)
    decreases |s|
  {
    if s != [] {
      var p := StepOf(s, m, HasAssignment(out));
      var out' := out + s[..p.keep];
      var r := ScanFrom(s[p.used..], p.next, out');
      Unfold(s, m, out);
      ScanSubseq(s[p.used..], p.next, out');
      After(out, s[..p.keep], r);
      SubseqChunk(s, p.keep, p.used, r[|out'|..]);
    }
  }

  /** What follows `out` in a result that starts with `out + c`. */
  lemma After(out: string, c: string, r: string)
    requires |out + c| <= |r| && r[..|out + c|] == out + c
    ensures r[|out|..] == c + r[|out + c|..]
  {
    assert r[|out|..|out + c|] == c;
    assert r[|out|..] == r[|out|..|out + c|] + r[|out + c|..];
  }

  /** The scanner loop runs one iteration and continues from where it left off. */
  lemma Unfold(s: string, m: Mode, out: string)
    requires s != []
    ensures ScanFrom(s, m, out)
         == ScanFrom(s[StepOf(s, m, HasAssignment(out)).used..],
                     StepOf(s, m, HasAssignment(out)).next,
                     out + s[..StepOf(s, m, HasAssignment(out)).keep])
  {
  }

  /** Where a triple-quoted block ends when its body neither contains three
      quotes in a row nor ends in a quote. */
  lemma {:induction false} TripleEndAfter(b: string, q: char, rest: string)
    requires NoTriple(b, q) && (b == [] || b[|b| - 1] != q)
    ensures TripleEnd(b + [q, q, q] + rest, q) == |b| + 3
    decreases |b|
  {
    var t := b + [q, q, q] + rest;
    if b == [] {
    } else if b[0] == q && |b| >= 2 && b[1] == q {
      assert |b| >= 3 && b[2] != q;
      assert t[2..] == b[2..] + [q, q, q] + rest;
      TripleEndAfter(b[2..], q, rest);
    } else {
      assert t[1..] == b[1..] + [q, q, q] + rest;
      TripleEndAfter(b[1..], q, rest);
    }
  }

  /** Without three quotes in a row, a triple-quoted block runs to the end. */
  lemma {:induction false} TripleEndUnterminated(b: string, q: char)
    requires NoTriple(b, q)
    ensures TripleEnd(b, q) == |b|
    decreases |b|
  {
    if b == [] {
    } else if b[0] == q && |b| >= 2 && b[1] == q {
      TripleEndUnterminated(b[2..], q);
    } else {
      TripleEndUnterminated(b[1..], q);
    }
  }

  /** The three ways an iteration inside a string can go. */
  lemma StringStep(s: string, q: char, afterAssign: bool)
    requires IsQuote(q) && s != []
    ensures s[0] == '\\' && |s| >= 2 ==> StepOf(s, InString(q), afterAssign) == Step(2, 2, InString(q))
    ensures s[0] == q ==> StepOf(s, InString(q), afterAssign) == Step(1, 1, Code)
    ensures s[0] != '\\' && s[0] != q ==> StepOf(s, InString(q), afterAssign) == Step(1, 1, InString(q))
  {
  }

  /** An iteration that consumes `n` characters and keeps them all. */
  lemma KeepStep(s: string, m: Mode, out: string, n: nat, m': Mode)
    requires 0 < n <= |s|
    requires StepOf(s, m, HasAssignment(out)) == Step(n, n, m')
    ensures ScanFrom(s, m, out) == ScanFrom(s[n..], m', out + s[..n])
  {
    Unfold(s, m, out);
  }

  /** Splitting `b + [q] + rest` after the first `n` characters of `b`, with
      the split-off part appended to `out`. */
  lemma Accumulate(out: string, b: string, q: char, rest: string, n: nat)
    requires n <= |b|
    ensures (b + [q] + rest)[n..] == b[n..] + [q] + rest
    ensures out + (b + [q] + rest)[..n] + (b[n..] + [q]) == out + (b + [q])
  {
    assert (b + [q] + rest)[..n] == b[..n];
    assert b[..n] + b[n..] == b;
  }

  /** What `StringBodyCopied` states for body `b`. */
  predicate CopiesString(b: string, q: char, rest: string, out: string) {
    ScanFrom(b + [q] + rest, InString(q), out) == ScanFrom(rest, Code, out + (b + [q]))
  }

  /** The escape case of `StringBodyCopied`, given the claim for the body after the pair. */
  lemma StringCopiedEscape(b: string, q: char, rest: string, out: string)
    requires IsQuote(q) && |b| >= 2 && b[0] == '\\'
    requires CopiesString(b[2..], q, rest, out + (b + [q] + rest)[..2])
    ensures CopiesString(b, q, rest, out)
  {
    var s := b + [q] + rest;
    StringStep(s, q, HasAssignment(out));
    KeepStep(s, InString(q), out, 2, InString(q));
    Accumulate(out, b, q, rest, 2);
  }

  /** The plain-character case of `StringBodyCopied`, given the claim for the rest of the body. */
  lemma StringCopiedPlain(b: string, q: char, rest: string, out: string)
    requires IsQuote(q) && b != [] && b[0] != '\\' && b[0] != q
    requires CopiesString(b[1..], q, rest, out + (b + [q] + rest)[..1])
    ensures CopiesString(b, q, rest, out)
  {
    var s := b + [q] + rest;
    StringStep(s, q, HasAssignment(out));
    KeepStep(s, InString(q), out, 1, InString(q));
    Accumulate(out, b, q, rest, 1);
  }

  /** Inside a string, a well-formed body and its closing quote are copied. */
  lemma {:induction false} StringBodyCopied(b: string, q: char, rest: string, out: string)
    requires IsQuote(q) && LiteralBody(b, q)
    ensures CopiesString(b, q, rest, out)
    decreases |b|
  {
    var s := b + [q] + rest;
    if b == [] {
      StringStep(s, q, HasAssignment(out));
      KeepStep(s, InString(q), out, 1, Code);
      assert s[1..] == rest && s[..1] == b + [q];
    } else if b[0] == '\\' && |b| >= 2 && LiteralBody(b[2..], q) {
      StringBodyCopied(b[2..], q, rest, out + s[..2]);
      StringCopiedEscape(b, q, rest, out);
    } else {
      StringBodyCopied(b[1..], q, rest, out + s[..1]);
      StringCopiedPlain(b, q, rest, out);
    }
  }

  /** What `PendingEscapeLost` states for body `b`. */
  predicate LosesEscape(b: string, q: char, out: string) {
    ScanFrom(b + "\\", InString(q), out) == out + b
  }

  /** The first `n` characters of a body that all stay in the string are copied. */
  lemma PendingEscapeStep(b: string, q: char, out: string, n: nat)
    requires IsQuote(q) && 0 < n <= |b|
    requires StepOf(b + "\\", InString(q), HasAssignment(out)) == Step(n, n, InString(q))
    requires LosesEscape(b[n..], q, out + b[..n])
    ensures LosesEscape(b, q, out)
  {
    KeepStep(b + "\\", InString(q), out, n, InString(q));
    SplitPending(b, out, n);
  }

  /** Splitting `b` followed by a backslash after the first `n` characters of `b`. */
  lemma SplitPending(b: string, out: string, n: nat)
    requires n <= |b|
    ensures (b + "\\")[n..] == b[n..] + "\\"
    ensures (b + "\\")[..n] == b[..n]
    ensures out + b[..n] + b[n..] == out + b
  {
    assert (b + "\\")[..n] == b[..n];
    assert b[..n] + b[n..] == b;
  }

  /** Input that ends while a backslash in a string waits for its partner:
      the backslash is lost, everything before it is copied. */
  lemma {:induction false} PendingEscapeLost(b: string, q: char, out: string)
    requires IsQuote(q) && LiteralBody(b, q)
    ensures LosesEscape(b, q, out)
    decreases |b|
  {
    var s := b + "\\";
    StringStep(s, q, HasAssignment(out));
    if b == [] {
      assert s[..0] == [] && s[1..] == [];
      Unfold(s, InString(q), out);
      assert out + [] == out;
    } else if b[0] == '\\' && |b| >= 2 && LiteralBody(b[2..], q) {
      PendingEscapeLost(b[2..], q, out + b[..2]);
      PendingEscapeStep(b, q, out, 2);
    } else {
      PendingEscapeLost(b[1..], q, out + b[..1]);
      PendingEscapeStep(b, q, out, 1);
    }
  }

  /** Outside strings, a `#` comment is removed up to, not including, the newline. */
  lemma HashCommentRemoved(body: string, rest: string, out: string)
    requires '\n' !in body
    requires rest == [] || rest[0] == '\n'
    ensures ScanFrom("#" + body + rest, Code, out) == ScanFrom(rest, Code, out)
  {
    var s := "#" + body + rest;
    assert s[1..] == body + rest;
    LineEndAt(body, rest);
    assert s[1 + |body|..] == rest;
    assert s[..0] == [];
    Unfold(s, Code, out);
    assert out + [] == out;
  }

  /** Two quotes not followed by a third are an empty string, kept. */
  lemma OpenPair(s: string, q: char, out: string)
    requires IsQuote(q) && |s| >= 2 && s[0] == q && s[1] == q && (|s| == 2 || s[2] != q)
    ensures ScanFrom(s, Code, out) == ScanFrom(s[2..], Code, out + s[..2])
  {
    assert StepOf(s, Code, HasAssignment(out)) == Step(2, 2, Code);
    KeepStep(s, Code, out, 2, Code);
  }

  /** A quote not followed by the same quote opens a string. */
  lemma OpenString(q: char, b: string, rest: string, out: string)
    requires IsQuote(q) && b != [] && b[0] != q
    ensures ScanFrom([q] + b + [q] + rest, Code, out) == ScanFrom(b + [q] + rest, InString(q), out + [q])
  {
    var s := [q] + b + [q] + rest;
    Enclose(q, b, rest, []);
    assert s[1] == b[0];
    assert StepOf(s, Code, HasAssignment(out)) == Step(1, 1, InString(q));
    KeepStep(s, Code, out, 1, InString(q));
  }

  /** Outside strings, a quoted string is copied verbatim, comment markers and
      escaped quotes included, unless an empty pair is followed by a third
      quote (which makes a triple quote). */
  lemma StringCopied(q: char, b: string, rest: string, out: string)
    requires IsQuote(q)
    requires LiteralBody(b, q)
    requires b != [] || rest == [] || rest[0] != q
    ensures ScanFrom([q] + b + [q] + rest, Code, out) == ScanFrom(rest, Code, out + ([q] + b + [q]))
  {
    if b == [] {
      EmptyStringCopied(q, b, rest, out);
    } else {
      FullStringCopied(q, b, rest, out);
    }
  }

  lemma EmptyStringCopied(q: char, b: string, rest: string, out: string)
    requires IsQuote(q) && b == []
    requires rest == [] || rest[0] != q
    ensures ScanFrom([q] + b + [q] + rest, Code, out) == ScanFrom(rest, Code, out + ([q] + b + [q]))
  {
    var s := [q] + b + [q] + rest;
    assert s[2..] == rest && s[..2] == [q, q] == [q] + b + [q];
    OpenPair(s, q, out);
  }

  lemma FullStringCopied(q: char, b: string, rest: string, out: string)
    requires IsQuote(q) && LiteralBody(b, q) && b != []
    ensures ScanFrom([q] + b + [q] + rest, Code, out) == ScanFrom(rest, Code, out + ([q] + b + [q]))
  {
    LiteralHead(b, q);
    OpenString(q, b, rest, out);
    StringBodyCopied(b, q, rest, out + [q]);
    Wrap(out, q, b);
  }

  lemma LiteralHead(b: string, q: char)
    requires q != '\\' && LiteralBody(b, q) && b != []
    ensures b[0] != q
  {
  }

  lemma Wrap(out: string, q: char, b: string)
    ensures out + [q] + (b + [q]) == out + ([q] + b + [q])
  {
    assert [q] + (b + [q]) == [q] + b + [q];
  }

  /** The opening quotes and consumption of a terminated triple-quoted block. */
  lemma TripleStep(q: char, b: string, rest: string, afterAssign: bool)
    requires IsQuote(q)
    requires NoTriple(b, q) && (b == [] || b[|b| - 1] != q)
    ensures var s := [q, q, q] + b + [q, q, q] + rest;
      && s[..|b| + 6] == [q, q, q] + b + [q, q, q]
      && s[|b| + 6..] == rest
      && StepOf(s, Code, afterAssign)
         == Step(if afterAssign then |b| + 6 else 0, |b| + 6, Code)
  {
    var s := [q, q, q] + b + [q, q, q] + rest;
    assert s[3..] == b + [q, q, q] + rest;
    TripleEndAfter(b, q, rest);
  }

  /** After an assignment, a triple-quoted string is kept verbatim. */
  lemma TripleQuotedKept(q: char, b: string, rest: string, out: string)
    requires IsQuote(q)
    requires NoTriple(b, q) && (b == [] || b[|b| - 1] != q)
    requires HasAssignment(out)
    ensures ScanFrom([q, q, q] + b + [q, q, q] + rest, Code, out)
         == ScanFrom(rest, Code, out + ([q, q, q] + b + [q, q, q]))
  {
    TripleStep(q, b, rest, true);
    Unfold([q, q, q] + b + [q, q, q] + rest, Code, out);
  }

  /** Anywhere else, a triple-quoted block is a docstring and is removed,
      delimiters included. */
  lemma DocstringRemoved(q: char, b: string, rest: string, out: string)
    requires IsQuote(q)
    requires NoTriple(b, q) && (b == [] || b[|b| - 1] != q)
    requires !HasAssignment(out)
    ensures ScanFrom([q, q, q] + b + [q, q, q] + rest, Code, out) == ScanFrom(rest, Code, out)
  {
    TripleStep(q, b, rest, false);
    Unfold([q, q, q] + b + [q, q, q] + rest, Code, out);
    assert out + [] == out;
  }

  /** An unterminated docstring swallows the rest of the input. */
  lemma DocstringUnterminated(q: char, b: string, out: string)
    requires IsQuote(q)
    requires NoTriple(b, q)
    requires !HasAssignment(out)
    ensures ScanFrom([q, q, q] + b, Code, out) == out
  {
    var s := [q, q, q] + b;
    assert s[3..] == b;
    TripleEndUnterminated(b, q);
    Unfold(s, Code, out);
    assert s[|s|..] == [];
    assert out + [] == out;
  }

  /** Outside strings a backslash is ordinary text and is kept. */
  lemma BackslashKeptInCode(rest: string, out: string)
    ensures ScanFrom("\\" + rest, Code, out) == ScanFrom(rest, Code, out + "\\")
  {
    var s := "\\" + rest;
    Unfold(s, Code, out);
    assert s[1..] == rest && s[..1] == "\\";
  }

  /** Three identical quotes in a row nowhere in `s`. */
  predicate NoTripleQuote(s: string) {
    NoTriple(s, '"') && NoTriple(s, '\'')
  }

  /** Text with no `#`, no backslash and no triple quote has nothing to
      remove: the scanner copies it whatever mode it starts in. */
  lemma {:induction false} ScanIdentity(s: string, m: Mode, out: string)
    requires '#' !in s && '\\' !in s && NoTripleQuote(s)
    ensures ScanFrom(s, m, out) == out + s
    decreases |s|
  {
    if s != [] {
      var p := StepOf(s, m, HasAssignment(out));
      KeepsAll(s, m, HasAssignment(out));
      NoTripleQuoteSuffix(s, p.used);
      KeepStep(s, m, out, p.used, p.next);
      ScanIdentity(s[p.used..], p.next, out + s[..p.used]);
      Rejoin(out, s, p.used);
    }
  }

  lemma Rejoin(out: string, s: string, n: nat)
    requires n <= |s|
    ensures out + s[..n] + s[n..] == out + s
  {
    assert s[..n] + s[n..] == s;
  }

  /** On such text every iteration keeps what it consumes. */
  lemma KeepsAll(s: string, m: Mode, afterAssign: bool)
    requires s != []
    requires '#' !in s && '\\' !in s && NoTripleQuote(s)
    ensures StepOf(s, m, afterAssign).keep == StepOf(s, m, afterAssign).used
  {
    if m == Code && IsQuote(s[0]) && |s| >= 3 {
      assert NoTriple(s, s[0]);
      assert !(s[1] == s[0] && s[2] == s[0]);
    }
  }

  lemma NoTripleQuoteSuffix(s: string, n: nat)
    requires n <= |s| && NoTripleQuote(s)
    ensures NoTripleQuote(s[n..])
  {
    NoTripleSuffix(s, '"', n);
    NoTripleSuffix(s, '\'', n);
  }

  lemma NoTripleSuffix(s: string, q: char, n: nat)
    requires n <= |s| && NoTriple(s, q)
    ensures NoTriple(s[n..], q)
  {
    forall i | 0 <= i < |s[n..]| - 2
      ensures !(s[n..][i] == q && s[n..][i + 1] == q && s[n..][i + 2] == q)
    {
      assert s[n..][i] == s[n + i] && s[n..][i + 1] == s[n + i + 1] && s[n..][i + 2] == s[n + i + 2];
    }
  }
}

=== FILE: scanning.dfy ===
/**
  Vocabulary shared by every comment scanner: the character classes the
  scanners test, the two comment-skipping searches (to the end of the line and
  to the end of a block comment), the outcome of one scanner iteration, and
  the subsequence relation that says a scanner only ever drops characters.
 */
module Scanning {

  datatype Option<T> = None | Some(value: T)

  /** Rust's `char::is_whitespace`: the Unicode White_Space property. */
  predicate IsWhitespace(c: char) {
    || ('\t' <= c <= '\r')
    || c == ' '
    || c == '\U{85}'
    || c == '\U{A0}'
    || c == '\U{1680}'
    || ('\U{2000}' <= c <= '\U{200A}')
    || c == '\U{2028}'
    || c == '\U{2029}'
    || c == '\U{202F}'
    || c == '\U{205F}'
    || c == '\U{3000}'
  }

  /** Rust's `char::is_ascii_alphanumeric`. */
  predicate IsAsciiAlphanumeric(c: char) {
    ('a' <= c <= 'z') || ('A' <= c <= 'Z') || ('0' <= c <= '9')
  }

  /** A character that opens a quoted string in Python and CSS. */
  predicate IsQuote(c: char) {
    c == '"' || c == '\''
  }

  /** One iteration of a scanner loop: it consumed the first `used` characters
      of the remaining input and appended the first `keep` of them to the
      output, leaving the scanner in state `next`. */
  datatype Step<S> = Step(keep: nat, used: nat, next: S)

  /** The iteration consumed at least one character and kept no more than it consumed. */
  predicate Advances<S>(p: Step<S>, s: seq<char>) {
    1 <= p.used <= |s| && p.keep <= p.used
  }

  /** Where a line comment stops: the index of the first newline, or the end
      of the input. The newline itself is not consumed. */
  function LineEnd(s: seq<char>): (k: nat)
    ensures k <= |s|
    ensures forall i :: 0 <= i < k ==> s[i] != '\n'
    ensures k < |s| ==> s[k] == '\n'
  {
    if s == [] || s[0] == '\n' then 0 else 1 + LineEnd(s[1..])
  }

  /** A line comment body without a newline stops at the newline that follows it. */
  lemma {:induction false} LineEndAt(body: seq<char>, rest: seq<char>)
    requires '\n' !in body
    requires rest == [] || rest[0] == '\n'
    ensures LineEnd(body + rest) == |body|
    decreases |body|
  {
    if body != [] {
      assert (body + rest)[1..] == body[1..] + rest;
      LineEndAt(body[1..], rest);
    }
  }

  /** Position `i` of `s` closes a block comment: a `/` whose preceding
      character (`before` when `i` is 0) is a `*`. */
  predicate ClosesAt(s: seq<char>, i: nat, before: char)
    requires i < |s|
  {
    s[i] == '/' && (if i == 0 then before else s[i - 1]) == '*'
  }

  /** No position of `s` closes a block comment opened just before it. */
  predicate NoCloser(s: seq<char>) {
    forall i :: 0 <= i < |s| ==> !ClosesAt(s, i, '*')
  }

  /** The inner loop of a block comment: characters are consumed one by one,
      remembering the previous one, until a `/` follows a `*`. */
  function BlockScan(s: seq<char>, prev: char): (k: nat)
    ensures k <= |s|
    ensures s != [] ==> 0 < k
    ensures forall i :: 0 <= i < k - 1 ==> !ClosesAt(s, i, prev)
    ensures k == |s| || ClosesAt(s, k - 1, prev)
  {
    if s == [] then 0
    else if prev == '*' && s[0] == '/' then 1
    else
      assert forall i :: 1 <= i < |s| ==> ClosesAt(s, i, prev) == ClosesAt(s[1..], i - 1, s[0]);
      1 + BlockScan(s[1..], s[0])
  }

  /** Characters a block comment consumes after its opening slash-star: through
      the first closing slash, or everything. The opener's star counts as the
      previous character, so a slash straight after the opener closes it. */
  function BlockEnd(s: seq<char>): (k: nat)
    ensures k <= |s|
    ensures s != [] ==> 0 < k
    ensures forall i :: 0 <= i < k - 1 ==> !ClosesAt(s, i, '*')
    ensures k == |s| || ClosesAt(s, k - 1, '*')
  {
    BlockScan(s, '*')
  }

  /** Where a block comment ends when its body has no earlier closer. */
  lemma BlockEndAfter(body: seq<char>, rest: seq<char>)
    requires NoCloser(body)
    ensures BlockEnd(body + "*/" + rest) == |body| + 2
  {
    var t := body + "*/" + rest;
    var k := BlockEnd(t);
    assert ClosesAt(t, |body| + 1, '*');
    forall i | 0 <= i < |body|
      ensures !ClosesAt(t, i, '*')
    {
      assert !ClosesAt(body, i, '*');
    }
    assert !ClosesAt(t, |body|, '*');
  }

  /** The body of a quoted literal closed by `q`: characters other than `q`
      and backslash, and backslash pairs. */
  predicate LiteralBody(b: string, q: char)
    decreases |b|
  {
    b == []
    || (b[0] == '\\' && |b| >= 2 && LiteralBody(b[2..], q))
    || (b[0] != '\\' && b[0] != q && LiteralBody(b[1..], q))
  }

  /** `a` can be obtained from `b` by deleting characters. */
  ghost predicate Subseq<T>(a: seq<T>, b: seq<T>)
    decreases |b|
  {
    a == [] || (b != [] && ((a[0] == b[0] && Subseq(a[1..], b[1..])) || Subseq(a, b[1..])))
  }

  /** Characters may be prepended to the larger sequence. */
  lemma {:induction false} SubseqWiden<T>(a: seq<T>, p: seq<T>, b: seq<T>)
    requires Subseq(a, b)
    ensures Subseq(a, p + b)
    decreases |p|
  {
    if p == [] {
      assert p + b == b;
    } else if a != [] {
      SubseqWiden(a, p[1..], b);
      assert (p + b)[1..] == p[1..] + b;
      assert Subseq(a, (p + b)[1..]);
    }
  }

  /** The shape of every scanner's output: a prefix of the consumed chunk
      followed by a subsequence of what comes after the chunk. */
  lemma {:induction false} SubseqChunk<T>(s: seq<T>, keep: nat, used: nat, x: seq<T>)
    requires keep <= used <= |s|
    requires Subseq(x, s[used..])
    ensures Subseq(s[..keep] + x, s)
    decreases keep
  {
    if keep == 0 {
      assert s[..keep] + x == x;
      SubseqWiden(x, s[..used], s[used..]);
      assert s[..used] + s[used..] == s;
    } else {
      SubseqChunk(s[1..], keep - 1, used - 1, x);
      assert s[1..][used - 1..] == s[used..];
      assert (s[..keep] + x)[1..] == s[1..][..keep - 1] + x;
    }
  }

  /** Splitting `b + [q] + rest` after the first `n` characters of `b`. */
  lemma Regroup<T>(b: seq<T>, q: T, rest: seq<T>, tail: seq<T>, n: nat)
    requires n <= |b|
    ensures (b + [q] + rest)[n..] == b[n..] + [q] + rest
    ensures (b + [q] + rest)[..n] + (b[n..] + [q] + tail) == b + [q] + tail
  {
    assert (b + [q] + rest)[..n] == b[..n];
    assert b[..n] + b[n..] == b;
  }

  /** Splitting `[q] + b + [q] + rest` after its first character. */
  lemma Enclose<T>(q: T, b: seq<T>, rest: seq<T>, tail: seq<T>)
    ensures ([q] + b + [q] + rest)[0] == q
    ensures ([q] + b + [q] + rest)[1..] == b + [q] + rest
    ensures ([q] + b + [q] + rest)[..1] == [q]
    ensures [q] + (b + [q] + tail) == [q] + b + [q] + tail
  {
  }

  /** Splitting `b + x` after the first `n` characters of `b`. */
  lemma Split<T>(b: seq<T>, x: seq<T>, n: nat)
    requires n <= |b|
    ensures (b + x)[n..] == b[n..] + x
    ensures (b + x)[..n] + b[n..] == b
  {
    assert (b + x)[..n] == b[..n];
  }

  /** Putting the head of a non-empty `p` back in front. */
  lemma Cons<T>(p: seq<T>, x: seq<T>)
    requires p != []
    ensures [p[0]] + (p[1..] + x) == p + x
  {
    assert [p[0]] + p[1..] == p;
  }
}
